=== FILE: README.md ===
# EnsoAI core, modelled in Dafny

EnsoAI is an Electron desktop application for working with git worktrees
and AI coding agents. This project models the deterministic core of its
main process and of a few renderer components:

- **Git IPC gate and service cache** (`git_ipc.dfy`, module `GitIpc`).
  - A set of authorized workdirs and a map from resolved workdir to `GitService`, kept by the class `GitRegistry`.
  - The workdir check every git request passes, and the `GIT_INIT` cache invalidation.
  - For commit-message generation: the prompt's text assembly, and how the CLI child's outcome is settled and classified.
- **Remote-access server manager** (`hapi_server.dfy`, module `HapiServer`).
  - The singleton `HapiServerManager` with its `process`, `config` and `status` fields.
  - The child's environment and the hex token generator.
  - The child's `error` and `exit` callbacks and the SIGKILL timer of `stop` are explicit events.
  - The manager logs its own effects: every `statusChanged` emission, every kill and every spawn environment.
- **Worktree activity store** (`worktree_activity.dfy`, module `WorktreeActivity`).
  - Agent and terminal counters and diff statistics keyed by worktree path, as functions from state to state.
  - The batch merge of fetched diff statistics, as a loop.
  - The close-handler registries, as a class over an insertion-ordered, duplicate-free sequence (JavaScript `Set` semantics).
- **Application detector** (`app_detector.dfy`, module `AppDetection`).
  - The `detectApps` cache; Windows detection, which is the uninstall-registry matching followed by the merge of the predefined apps; Linux detection.
  - The command lines `openPath` builds, with their quoting.
  - `getLineArgs`, and the file names `getAppIcon` derives.
  - Every operating-system probe is a parameter: file existence, `path.join`, the output of `where` and `which`, and the registry entries.
- **List filters of the renderer.**
  - The worktree search and all/active/stale switch (`worktrees_view.dfy`).
  - The local/remote branch lists (`branch_selector.dfy`).
  - The workspace search and id lookup (`workspace_selector.dfy`).
- **Remote-sharing settings page** (`hapi_settings.dfy`): the port fallback to 3006, the config handed to the server manager, and token generation.
- **Shared text helpers** (`text.dfy`, module `Text`).
  - ASCII lower-casing, `includes`, `split`/`join`, `trim`, `replace`.
  - Decimal rendering, and hex encoding with its decoder.
  - An order-preserving `Filter` with subsequence and partition lemmas.

Every loop of the source that is modelled as a method is proved equal to a
specification function, and properties of those functions are proved:

- distinct ids;
- registry apps first;
- at most one entry per app;
- order preservation;
- the hex token decodes back to its bytes;
- the escaping of paths in `openPath` is reversible by its own decoders
  (`UnquoteSingle`, `UnescapeDouble`); how a shell reads the command is not
  modelled (see "Left out").

One fact about the Windows pattern table is proved rather than assumed.
"Microsoft Visual Studio Code" contains "Visual Studio Code", which is tried
earlier under the same id, so the longer pattern never decides an entry
(`AppDetection.LongVsCodePatternNeverMatches`). Behaviour is unaffected.

For a command name, the detector resolves it with `where` and keeps the first
line of the trimmed output, splitting on `\n` alone. `where` ends its lines
with CR LF. So when it prints more than one line, the resolved path keeps a
trailing carriage return (`AppDetection.WhereFirstLineKeepsCarriageReturn`).

## Model

| member | source | states |
|---|---|---|
| GitIpc.ValidateWorkdir | src/main/ipc/git.ts:29-46 | passes iff the resolved path is authorized, or is an existing directory holding `.git`; on success returns the resolved path; "not a directory" exactly when an unauthorized path is no directory, "not a git repository" exactly when it is a directory without `.git` |
| GitIpc.AuthorizedIgnoresDisk | src/main/ipc/git.ts:32-33 | the verdict for an authorized path is the same whatever the disk holds |
| GitIpc.ValidateResolvedAgain | src/main/ipc/git.ts:120-122 | validating the already-resolved path again, as `GIT_INIT` does, gives the same verdict when `path.resolve` is idempotent there |
| GitIpc.GitService.constructor | src/main/ipc/git.ts:51 | a new service is bound to the workdir it is created for |
| GitIpc.GitRegistry.constructor | src/main/ipc/git.ts:9-12 | both collections start empty |
| GitIpc.GitRegistry.Register | src/main/ipc/git.ts:14-16 | the resolved path is added to the authorized set; registering it again changes nothing |
| GitIpc.GitRegistry.Unregister | src/main/ipc/git.ts:18-22 | the resolved key leaves both the authorized set and the cache, no other key changes, and an absent path is a no-op |
| GitIpc.GitRegistry.ClearAll | src/main/ipc/git.ts:24-27 | cache and authorized set are both empty afterwards |
| GitIpc.GitRegistry.GetGitService | src/main/ipc/git.ts:48-54 | a rejected path returns its error and leaves the cache unchanged; otherwise the key is cached with a service for it, an existing entry is returned and never replaced, a missing one is created fresh and added |
| GitIpc.GitRegistry.Init | src/main/ipc/git.ts:120-126 | a rejected path changes nothing; a successful `init` removes exactly the resolved key from the cache; when `init` throws the deletion is not reached and the key stays cached |
| GitIpc.SameKeySameService | src/main/ipc/git.ts:48-54 | two requests whose paths resolve to the same key both succeed or both fail, and succeed with the same service object |
| GitIpc.JoinNonEmptyPair | src/main/ipc/git.ts:204-205 | the diff summary is the non-empty ones of the staged and unstaged strings, staged first, joined by a newline |
| GitIpc.SliceEnd | src/main/ipc/git.ts:208 | the number of lines `slice(0, end)` keeps: `end` itself when in range, all lines when larger, counted from the back when negative |
| GitIpc.TruncateDiffLines | src/main/ipc/git.ts:207-209 | the diff body is the placeholder "(no changes detected)" or a non-empty prefix of the diff content whose lines are exactly the first lines `slice` keeps |
| GitIpc.TruncateDiffKeepsAll | src/main/ipc/git.ts:207-209 | when the limit covers every line the body is the whole content, or the placeholder for empty content |
| GitIpc.CommitPrompt | src/main/ipc/git.ts:197-220 | no section of the prompt is empty; recent commits are used verbatim or replaced by "(no recent commits)"; with both stats empty the summary is "(no stats)", otherwise it is the non-empty stats, staged first, newline-joined; the details are `TruncateDiff` of the non-empty diffs joined the same way |
| GitIpc.ClassifyClose | src/main/ipc/git.ts:264-282 | success iff exit code 0 and the parsed answer has type "result", subtype "success" and a truthy result, whose text is the message; a non-zero code gives stderr or "Exit code: N"; a parse failure gives "Failed to parse response"; otherwise the answer's error or "Unknown error" |
| GitIpc.Settle | src/main/ipc/git.ts:251-287 | the first event settles the request; SIGTERM is sent iff the timer fired first, which gives "timeout"; a process error gives its message; a close gives the close handler's verdict `ClassifyClose` |
| HapiServer.ChildEnv | src/main/services/hapi/HapiServerManager.ts:37-53 | `WEBAPP_PORT` is always the port as text; each of the four optional keys is the config value when non-empty and otherwise exactly the ambient entry; every other key is the ambient environment's |
| HapiServer.GenerateToken | src/main/services/hapi/HapiServerManager.ts:26-28 | 32 bytes give 64 lower-case hex characters that decode back to the bytes |
| HapiServer.HapiServerManager.constructor | src/main/services/hapi/HapiServerManager.ts:22-24 | no handle, no config, status `{ running: false }` |
| HapiServer.HapiServerManager.Start | src/main/services/hapi/HapiServerManager.ts:30-100 | with a live handle: returns the status, spawns and emits nothing; otherwise stores the config, spawns once with `ChildEnv`, emits the returned status once; a spawned child gives `{running: true, pid, port}` and becomes the handle, a throwing spawn gives `{running: false, error}` and no handle; the handle-implies-running invariant holds |
| HapiServer.HapiServerManager.Stop | src/main/services/hapi/HapiServerManager.ts:102-124 | without a handle settles at once with the current status and sends nothing; otherwise sends SIGTERM to the child, registers a pending stop, and does not settle yet |
| HapiServer.HapiServerManager.OnChildError | src/main/services/hapi/HapiServerManager.ts:76-81 | status `{running: false, error}`, handle cleared, one emission |
| HapiServer.HapiServerManager.OnKillTimeout | src/main/services/hapi/HapiServerManager.ts:110-112 | SIGKILL is sent iff a stop on that child is still pending (its timer was not cleared) |
| HapiServer.HapiServerManager.OnChildExit | src/main/services/hapi/HapiServerManager.ts:83-120 | status `{running: false}` and handle cleared; one emission from `start`'s listener, then one emission and one `{running: false}` settlement per pending stop on that child, whose listeners are removed |
| HapiServer.HapiServerManager.Restart | src/main/services/hapi/HapiServerManager.ts:126-129 | stop (with SIGTERM, optionally SIGKILL, and the exit), then start: the new config is stored, one new spawn with its environment, and the resulting status; the exact emissions and kills are given |
| HapiServer.HapiServerManager.GetStatus | src/main/services/hapi/HapiServerManager.ts:131-133 | returns the status field and changes nothing |
| HapiServer.HapiServerManager.Cleanup | src/main/services/hapi/HapiServerManager.ts:135-140 | a live handle is SIGKILLed and cleared; nothing is emitted and the status is not touched |
| HapiServer.StartTwice | src/main/services/hapi/HapiServerManager.ts:30-33 | a second `start` while the first child lives returns the same status, keeps the first config, and spawns and emits nothing more |
| WorktreeActivity.GetActivity | src/renderer/stores/worktreeActivity.ts:158-160 | the stored record, or `{0, 0}` for an absent path |
| WorktreeActivity.GetDiffStats | src/renderer/stores/worktreeActivity.ts:162-164 | the stored stats, or `{0, 0}` for an absent path |
| WorktreeActivity.HasActivity | src/renderer/stores/worktreeActivity.ts:153-156 | true iff an entry exists with a positive agent or terminal count |
| WorktreeActivity.IncrementAgent | src/renderer/stores/worktreeActivity.ts:57-66 | the agent count grows by one (from 0 when absent), the terminal count, every other path and the diff stats are unchanged |
| WorktreeActivity.DecrementAgent | src/renderer/stores/worktreeActivity.ts:68-77 | the agent count drops by one but never below 0 (a count below 1 ends at 0); nothing else changes |
| WorktreeActivity.SetAgentCount | src/renderer/stores/worktreeActivity.ts:79-88 | the agent count is exactly the given one; nothing else changes |
| WorktreeActivity.IncrementTerminal | src/renderer/stores/worktreeActivity.ts:90-99 | the terminal count grows by one; nothing else changes |
| WorktreeActivity.DecrementTerminal | src/renderer/stores/worktreeActivity.ts:101-110 | the terminal count drops by one but never below 0; nothing else changes |
| WorktreeActivity.SetTerminalCount | src/renderer/stores/worktreeActivity.ts:112-121 | the terminal count is exactly the given one; nothing else changes |
| WorktreeActivity.SetDiffStats | src/renderer/stores/worktreeActivity.ts:123-129 | exactly one key of the diff stats is replaced; activities untouched |
| WorktreeActivity.ClearWorktree | src/renderer/stores/worktreeActivity.ts:166-170 | only that path's activity entry goes, so `getActivity` gives the default; its diff stats stay |
| WorktreeActivity.IncrementDecrementAgent | src/renderer/stores/worktreeActivity.ts:57-77 | opening and closing an agent session restores a non-negative record |
| WorktreeActivity.IncrementDecrementTerminal | src/renderer/stores/worktreeActivity.ts:90-110 | opening and closing a terminal restores a non-negative record |
| WorktreeActivity.IncrementShowsActivity | src/renderer/stores/worktreeActivity.ts:153-156 | after either increment the worktree shows activity |
| WorktreeActivity.WriteAllKeys | src/renderer/stores/worktreeActivity.ts:144-150 | after the merge the keys are the old keys plus every fetched path |
| WorktreeActivity.WriteAllOthers | src/renderer/stores/worktreeActivity.ts:144-150 | a path not fetched keeps its old stats or stays absent |
| WorktreeActivity.WriteAllLast | src/renderer/stores/worktreeActivity.ts:146-148 | a path fetched more than once keeps the result of its last occurrence |
| WorktreeActivity.FetchDiffStats | src/renderer/stores/worktreeActivity.ts:131-151 | the loop's result is the in-order write of every result, the default for a failed fetch; every requested path gets an entry, other paths and the activities are untouched |
| WorktreeActivity.Added | src/renderer/stores/worktreeActivity.ts:177 | `Set.add` keeps every handler, contains the new one and creates no duplicate |
| WorktreeActivity.Removed | src/renderer/stores/worktreeActivity.ts:179 | `Set.delete` keeps exactly the other handlers |
| WorktreeActivity.RemovedNoDuplicates | src/renderer/stores/worktreeActivity.ts:179 | deleting never creates a duplicate |
| WorktreeActivity.DisposeUndoesRegister | src/renderer/stores/worktreeActivity.ts:176-181 | the disposer of a newly registered handler restores the set exactly |
| WorktreeActivity.CloseHandlerRegistry.constructor | src/renderer/stores/worktreeActivity.ts:173-174 | a registry starts empty |
| WorktreeActivity.CloseHandlerRegistry.Register | src/renderer/stores/worktreeActivity.ts:176-188 | the handler set becomes `Added(old, h)`, still duplicate-free |
| WorktreeActivity.CloseHandlerRegistry.Dispose | src/renderer/stores/worktreeActivity.ts:178-180 | the handler set becomes `Removed(old, h)`, still duplicate-free |
| WorktreeActivity.CloseHandlerRegistry.CloseSessions | src/renderer/stores/worktreeActivity.ts:190-200 | every registered handler is called once with the path, in registration order |
| AppDetection.MatchFrom | src/main/services/app/AppDetector.ts:300-301 | the first pattern occurring in the display name whose id is not yet detected; none iff no pattern qualifies |
| AppDetection.VsCodePatterns | src/main/services/app/AppDetector.ts:181-192 | the long VS Code pattern is the short one prefixed by "Microsoft ", with the same id |
| AppDetection.LongVsCodePatternNeverMatches | src/main/services/app/AppDetector.ts:181-192 | the "Microsoft Visual Studio Code" pattern is never the one chosen |
| AppDetection.IconCandidate | src/main/services/app/AppDetector.ts:309 | the trimmed DisplayIcon text up to its first comma (a comma-free prefix that runs to the end or stops at a `,`) with every `"` deleted and all other characters kept in order |
| AppDetection.FirstExisting | src/main/services/app/AppDetector.ts:316-325 | a non-empty result is `join(location, pattern)` for the first pattern whose join exists, every earlier one not existing; `""` iff no pattern's join exists |
| AppDetection.ExePathFor | src/main/services/app/AppDetector.ts:305-325 | an existing `.exe` icon path wins; otherwise the first existing install-location join, or `""` without an install location; `""` iff neither yields a path; anything found exists |
| AppDetection.RegistryStepAdds | src/main/services/app/AppDetector.ts:292-337 | one entry adds nothing or exactly one app, of a table pattern, at an existing path, under an id not yet detected; only the first qualifying pattern is tried: it adds its own name, id and category with `ExePathFor`'s path, and adds nothing when that path is `""`, whatever later patterns would match |
| AppDetection.RegistryAppsDistinct | src/main/services/app/AppDetector.ts:292-337 | the registry never yields an id twice, and at most one app per entry |
| AppDetection.RegistryAppsFromTable | src/main/services/app/AppDetector.ts:327-334 | every registry app carries a pattern's name, id and category, at a non-empty existing path |
| AppDetection.NamelessEntryIgnored | src/main/services/app/AppDetector.ts:294-295 | an entry without a DisplayName adds nothing |
| AppDetection.MatchPattern | src/main/services/app/AppDetector.ts:300-301 | the pattern loop returns `MatchFrom` from the first pattern |
| AppDetection.FindRegistryExe | src/main/services/app/AppDetector.ts:305-325 | the icon-then-install-location code computes `ExePathFor` |
| AppDetection.DetectFromRegistry | src/main/services/app/AppDetector.ts:280-345 | the entry loop computes `RegistryApps`, keeping its id set equal to the ids detected |
| AppDetection.ResolveExe | src/main/services/app/AppDetector.ts:58-85 | a path with `\` or `/` resolves to itself iff it exists; a command name `where` does not find resolves to `""`; otherwise to the first line of the trimmed `where` output: a newline-free prefix that runs to the end or stops at a `\n` |
| AppDetection.WhereFirstLineKeepsCarriageReturn | src/main/services/app/AppDetector.ts:74-75 | when the trimmed `where` output's first line ends in CR LF, the resolved path is that line with its `\r` |
| Text.SplitFirst | src/main/services/app/AppDetector.ts:75 | `split(c)[0]` is the prefix of the string up to its first `c`, or all of it |
| AppDetection.FirstResolved | src/main/services/app/AppDetector.ts:56-90 | the first candidate that resolves, with every earlier one unresolved; empty iff none resolves |
| AppDetection.FirstResolvedPath | src/main/services/app/AppDetector.ts:56-90 | the candidate loop stops at the first hit and computes `FirstResolved` |
| AppDetection.WindowsAppsRegistryFirst | src/main/services/app/AppDetector.ts:45-91 | the registry apps come first, unchanged, and each predefined app adds at most one entry |
| AppDetection.WindowsAppsDistinct | src/main/services/app/AppDetector.ts:53-54 | skipping detected ids keeps the ids distinct |
| AppDetection.WindowsAppsFromCatalogue | src/main/services/app/AppDetector.ts:56-90 | every entry beyond the registry's is a predefined app at its first resolving path |
| AppDetection.WindowsAppsComplete | src/main/services/app/AppDetector.ts:53-91 | every predefined app with a resolving path ends up with its id detected |
| AppDetection.LinuxAppsOnePerApp | src/main/services/app/AppDetector.ts:403-428 | the Linux list is, in order, exactly the apps with a resolving command, each at its first one |
| AppDetection.WindowsDetectionDistinct | src/main/services/app/AppDetector.ts:41-96 | a Windows detection lists every id at most once |
| AppDetection.MergePredefined | src/main/services/app/AppDetector.ts:52-91 | the merge loop computes `WindowsApps` from the registry apps |
| AppDetection.AppDetector.constructor | src/main/services/app/AppDetector.ts:16-17 | empty list, not initialized |
| AppDetection.AppDetector.DetectWindowsApps | src/main/services/app/AppDetector.ts:41-96 | returns and caches the registry apps merged with the predefined ones, and sets the flag |
| AppDetection.AppDetector.DetectLinuxApps | src/main/services/app/AppDetector.ts:403-429 | returns and caches `LinuxApps`, and sets the flag |
| AppDetection.AppDetector.DetectApps | src/main/services/app/AppDetector.ts:19-39 | once initialized returns the cached list and changes nothing; otherwise the platform's detection, cached, except that an unknown platform sets the flag and keeps the list |
| AppDetection.DetectTwice | src/main/services/app/AppDetector.ts:19-22 | a second detection returns the first one's list whatever the host answers |
| AppDetection.FindApp | src/main/services/app/AppDetector.ts:441 | the first detected app with the id; none iff no app has it |
| AppDetection.QuoteSingleRoundTrip | src/main/services/app/AppDetector.ts:447-448 | doubling every `'` is reversible by `UnquoteSingle`, which reads `''` as one `'` |
| AppDetection.EscapeDoubleRoundTrip | src/main/services/app/AppDetector.ts:470 | backslash-escaping every `"` is reversible by `UnescapeDouble`, which reads `\"` as `"` |
| AppDetection.EscapeDoubleQuotesGuarded | src/main/services/app/AppDetector.ts:470 | every `"` in the escaped path is preceded by a backslash |
| AppDetection.BackslashPath | src/main/services/app/AppDetector.ts:460 | every `/` becomes `\`, every other character stays |
| AppDetection.GetLineArgs | src/main/services/app/AppDetector.ts:601-633 | VS Code family ids give `--args "p" -g "p:l"`, JetBrains ids (not caught by the Zed and Sublime checks) `--args --line l "p"`, all others `"p:l"` |
| AppDetection.WindowsLaunch | src/main/services/app/AppDetector.ts:446-467 | the full PowerShell `Start-Process` command for each case, with the exe and the path each between `'…'` after `QuoteSingle`, `:line` appended for an editor given a line; Explorer's `start` with the backslashed path |
| AppDetection.FlagFrom | src/main/services/app/AppDetector.ts:476-487 | the flag of the first terminal in the table, from a given index on, whose name the command contains; none iff no remaining name occurs |
| AppDetection.WorkingDirectoryFlag | src/main/services/app/AppDetector.ts:476-487 | names are tried in the order gnome-terminal, konsole, alacritty, kitty, tilix, terminator, and the first one the command contains decides: `--working-directory=`, `--workdir `, `--working-directory `, `--directory `, `--working-directory=`, `--working-directory=`; no flag iff none occurs |
| AppDetection.LinuxTerminalLaunch | src/main/services/app/AppDetector.ts:472-491 | a known terminal is run as `"cmd" <flag>"path"`, the path being its working directory; any other command as `cd "path" && "cmd"`; either way the quoted command and the quoted escaped path appear |
| AppDetection.LinuxLaunch | src/main/services/app/AppDetector.ts:468-498 | every Linux command holds the path, `"`-escaped, between `"…"` |
| AppDetection.OpenPath | src/main/services/app/AppDetector.ts:441-513 | fails with "App with bundle ID … not found" iff the id is not detected; only macOS editors with a workspace go to the editor's own launcher; the Windows commands are stated in full with `QuoteSingle` of the exe and the path (and `:line` for an editor given a line), Explorer gets the backslashed path; Linux commands hold `"` + `EscapeDouble(path)` + `"`, non-terminals exactly `"app" "path"`; macOS runs `open -b "id"` with `GetLineArgs` for an editor given a line, else the quoted path |
| AppDetection.IconFileName | src/main/services/app/AppDetector.ts:656-660 | nothing for blank output; otherwise the trimmed name, with ".icns" appended iff missing |
| AppDetection.TmpPngName | src/main/services/app/AppDetector.ts:666 | `enso-icon-` + the bundle id with every `.` turned into `-` + `.png`; no `.` before the extension |
| AppDetection.AppIcon | src/main/services/app/AppDetector.ts:635-674 | a conversion iff on macOS, for a detected app, Info.plist names an icon and `app/Contents/Resources/<icon>.icns` exists; that file is the one converted, and the PNG goes to the temporary directory under `TmpPngName` |
| WorktreesView.FilteredWorktrees | src/renderer/views/WorktreesView.tsx:34-58 | an empty query with 'all' returns the list unchanged; a worktree is shown iff it is listed, matches the search (branch or path, lower-cased) when there is one, and passes the type switch |
| WorktreesView.FilteredIsSubsequence | src/renderer/views/WorktreesView.tsx:34-58 | the shown list keeps the worktrees' order |
| WorktreesView.ActiveStalePartition | src/renderer/views/WorktreesView.tsx:48-55 | 'active' and 'stale' split the search result between them, as multisets and in length |
| BranchSelector.LocalBranches | src/renderer/components/git/BranchSelector.tsx:33-35 | exactly the listed branches outside `remotes/` whose lower-cased name contains the lower-cased query |
| BranchSelector.RemoteBranches | src/renderer/components/git/BranchSelector.tsx:37-39 | exactly the listed branches under `remotes/` that match the query |
| BranchSelector.ListsKeepOrder | src/renderer/components/git/BranchSelector.tsx:33-39 | both lists keep git's order |
| BranchSelector.ListsDisjoint | src/renderer/components/git/BranchSelector.tsx:33-39 | no branch is in both lists |
| BranchSelector.ListsPartitionMatches | src/renderer/components/git/BranchSelector.tsx:33-39 | together the lists hold every matching branch exactly once |
| BranchSelector.EmptyQueryPartitionsAll | src/renderer/components/git/BranchSelector.tsx:33-39 | with an empty query every branch is in exactly one list |
| BranchSelector.HandleValueChange | src/renderer/components/git/BranchSelector.tsx:41-45 | checks out the value iff it is present and non-empty |
| BranchSelector.RemoteLabelDropsPrefix | src/renderer/components/git/BranchSelector.tsx:95 | a remote branch is shown as its name without the leading `remotes/` |
| WorkspaceSelector.FilteredWorkspaces | src/renderer/components/workspace/WorkspaceSelector.tsx:38-40 | exactly the workspaces whose lower-cased name contains the lower-cased query |
| WorkspaceSelector.FilteredKeepsOrder | src/renderer/components/workspace/WorkspaceSelector.tsx:38-40 | the search keeps the workspaces' order |
| WorkspaceSelector.EmptyQueryKeepsAll | src/renderer/components/workspace/WorkspaceSelector.tsx:38-40 | an empty query keeps every workspace |
| WorkspaceSelector.FindById | src/renderer/components/workspace/WorkspaceSelector.tsx:58 | the first workspace whose id reads as the value; none iff no id does |
| WorkspaceSelector.HandleValueChange | src/renderer/components/workspace/WorkspaceSelector.tsx:56-60 | a missing or empty value selects nothing; otherwise the `FindById` result |
| WorkspaceSelector.SelectByOwnId | src/renderer/components/workspace/WorkspaceSelector.tsx:56-60 | choosing a listed workspace's id selects a workspace with that id, and that very workspace when ids are unique |
| HapiSettingsPage.PortOrDefault | src/renderer/components/settings/HapiSettings.tsx:48 | `NaN` and 0 fall back to 3006, every other number is kept; the port is never 0 |
| HapiSettingsPage.BlankPortIsDefault | src/renderer/components/settings/HapiSettings.tsx:48 | a cleared port field gives 3006 |
| HapiSettingsPage.PortTextRoundTrip | src/renderer/components/settings/HapiSettings.tsx:31 | a positive port written into the field reads back as the same port |
| HapiSettingsPage.NumberOfDigits | src/renderer/components/settings/HapiSettings.tsx:48 | a run of decimal digits reads as its value |
| HapiSettingsPage.GetConfig | src/renderer/components/settings/HapiSettings.tsx:46-54 | the port with its fallback, every other field copied verbatim |
| HapiSettingsPage.SaveSettings | src/renderer/components/settings/HapiSettings.tsx:56-59 | the config's fields are written into the settings, `enabled` is kept |
| HapiSettingsPage.LoadThenSaveKeepsSettings | src/renderer/components/settings/HapiSettings.tsx:30-59 | saving a form only loaded from settings with a positive port changes nothing |
| HapiSettingsPage.OnPortBlur | src/renderer/components/settings/HapiSettings.tsx:165 | only `webappPort` is written, with the same fallback |
| HapiSettingsPage.BlurMatchesConfig | src/renderer/components/settings/HapiSettings.tsx:165 | the blur handler and `getConfig` agree on the port |
| HapiSettingsPage.ByteHexParts | src/renderer/components/settings/HapiSettings.tsx:100-101 | one two-character hex string per byte, in order |
| HapiSettingsPage.JoinByteHex | src/renderer/components/settings/HapiSettings.tsx:100-102 | joining the per-byte strings is the hex encoding of the bytes |
| HapiSettingsPage.TokenOf | src/renderer/components/settings/HapiSettings.tsx:99-102 | 64 characters from 0-9a-f; characters 2i and 2i+1 are the high and low nibble of byte i; the token decodes back to the bytes and equals the server manager's `generateToken` |
| HapiSettingsPage.HandleGenerateToken | src/renderer/components/settings/HapiSettings.tsx:99-105 | the same token goes into the form and into `cliApiToken`, nothing else changes |
| Text.ByteHexIsPaddedToHex | src/renderer/components/settings/HapiSettings.tsx:101 | `b.toString(16).padStart(2, '0')` is the two nibble digits of the byte |
| Text.HexEncodeAt | src/renderer/components/settings/HapiSettings.tsx:100-102 | characters 2i and 2i+1 of the encoding are the high and low nibble digits of byte i |
| Text.HexRoundTrip | src/renderer/components/settings/HapiSettings.tsx:100-102 | decoding the hex encoding gives the bytes back |
| Text.HexEncodeAlphabet | src/renderer/components/settings/HapiSettings.tsx:100-102 | the encoding is twice as long as the bytes and uses only 0-9a-f |

## Left out

- Operating-system I/O is not executed; it enters as parameters. This covers:
  - `spawn` and `exec`/`execSync`;
  - `existsSync` and `statSync`;
  - `readdir` and `readFile`;
  - the `reg query`, PlistBuddy and `sips` calls;
  - `where`/`which`;
  - the five git commands behind the prompt.
- `path.resolve` and `path.join` are uninterpreted functions. `GIT_INIT` re-resolves an already resolved path; `GitIpc.GitRegistry.Init` requires `path.resolve` to be idempotent there.
- Parsing `reg query` output with regular expressions is not modelled. Registry entries arrive already split into their DisplayName, InstallLocation and DisplayIcon values, and the three uninstall keys are concatenated in order. A key whose query fails contributes no entries.
- `JSON.parse` of the CLI output is not modelled. The parsed answer is an input, and a field of the wrong type counts as absent.
- `Number()` is modelled only for blank text and plain decimal digits; the value of any other spelling is an input. `toLowerCase` and `trim` are ASCII-only.
- JavaScript numbers are taken to be integers or `NaN`. A fractional or out-of-range port ("3006.5", "1e400") has no `NumberValue`. `maxDiffLines` is an integer; a fractional, `NaN` or `undefined` limit given to `slice` is not modelled. Line numbers are integers too.
- `randomBytes` and `crypto.getRandomValues` are not modelled; the random bytes are an input.
- Timers and races are not modelled as concurrency. The 5000 ms SIGKILL timer, the timeout/close race of commit-message generation and the parallel fetches of `fetchDiffStats` become explicitly ordered events or inputs.
- `AppDetection.AppDetector.DetectApps`: calls are taken one after another. Two overlapping `detectApps` calls both find the flag unset and both probe the host; `AppDetection.DetectTwice` covers sequential calls only.
- `WorktreeActivity.CloseHandlerRegistry.CloseSessions`: the handlers to call are fixed before the first call. A handler that registers or disposes handlers during the loop changes what a live JavaScript `Set` iteration visits, and a handler that throws stops the loop; neither is modelled.
- `AppDetection.QuoteSingleRoundTrip`: the round trip is through the model's decoder, not PowerShell. PowerShell also treats the typographic quotes U+2018 to U+201B as single quotes, and `cmd` expands `%VAR%` in the outer command line; neither is modelled.
- `AppDetection.EscapeDoubleRoundTrip`: the round trip is through the model's decoder, not `sh`. Between `"…"`, `sh` also expands `$(…)`, backticks and `$VAR`, and reads `\\` as one backslash, so a path holding `$` or a backtick, or a backslash before a `"` or at its end, is not passed intact; none of this is modelled.
- `AppDetection.FirstExisting`: an empty `path.join` result never counts as existing, as `path.join` never returns `""` and `existsSync('')` is false.
- On Linux, the source's separate file-manager branch runs the same command as its final branch; the model has one branch for both.
- The macOS application scan (`detectMacApps`) is not modelled; its result is an input.
- `openEditorWithFiles` and `getEditorCliPath` are not modelled. `AppDetection.OpenPath` stops at the decision to use them.
- Reading the PNG and its base64 data URL are I/O and are not modelled.
- `AppDetection.OpenPath`: on macOS a line number is a JavaScript number; the model takes integer lines only.
- The predefined app lists `WINDOWS_APPS` and `LINUX_APPS` are not part of this model and are supplied as catalogue parameters. The file that defines them (`constants.ts`) is not part of this model.
- The `GitService` class is not part of this model beyond its workdir. Its git operations, the other git IPC handlers that merely forward to it, the CLI child's arguments and `PATH` are left out.
- React state, rendering, `statusChanged` broadcasting, console logging and the child's stdout/stderr handlers are not modelled.
- `HapiServer.HapiServerManager.Restart`: the exit `stop` waits for is taken to come after SIGTERM (or after the SIGKILL timer). A child that never exits would leave `restart` pending forever; that case is not modelled.
- `GitIpc.CommitPrompt`: the prompt's fixed Chinese instruction text and headings are not reproduced. Only the three variable sections are modelled.

=== FILE: app_detector.dfy ===
/**
 * The application detector of the main process: which editors, terminals
 * and file managers are installed, cached after the first detection, and
 * the commands used to open a path in one of them.
 *
 * Every operating-system probe (does a file exist, what `where` / `which`
 * print, the Windows uninstall registry, the macOS application scan) is an
 * input. What is modelled is what the detector does with those answers.
 */
module AppDetection {
  import opened Text

  datatype AppCategory = Editor | Terminal | Finder

  datatype DetectedApp = DetectedApp(name: string, bundleId: string, category: AppCategory, path: string)

  datatype Platform = Windows | Mac | Linux | OtherPlatform

  /**
   * Answers of the host. `join` is `path.join` of two segments, `where` and
   * `which` give the standard output of those commands, or `None` when the
   * command failed.
   */
  datatype Probe = Probe(
    pathExists: string -> bool,
    join: (string, string) -> string,
    where: string -> Option<string>,
    which: string -> Option<string>)

  /** One application of a predefined list: its id, display name, category and the paths or commands to try. */
  datatype KnownApp = KnownApp(id: string, name: string, category: AppCategory, paths: seq<string>)

  function Ids(apps: seq<DetectedApp>): set<string> {
    set i | 0 <= i < |apps| :: apps[i].bundleId
  }

  lemma IdsAppend(apps: seq<DetectedApp>, a: DetectedApp)
    ensures Ids(apps + [a]) == Ids(apps) + {a.bundleId}
  {
    var both := apps + [a];
    assert forall i :: 0 <= i < |apps| ==> both[i] == apps[i];
    assert both[|apps|] == a;
  }

  ghost predicate DistinctIds(apps: seq<DetectedApp>) {
    forall i, j :: 0 <= i < j < |apps| ==> apps[i].bundleId != apps[j].bundleId
  }

  /** Appending an app under a new id keeps the ids distinct. */
  lemma DistinctIdsAppend(apps: seq<DetectedApp>, a: DetectedApp)
    requires DistinctIds(apps) && a.bundleId !in Ids(apps)
    ensures DistinctIds(apps + [a])
  {
    var both := apps + [a];
    forall i, j | 0 <= i < j < |both|
      ensures both[i].bundleId != both[j].bundleId
    {
      assert both[i] == apps[i];
      if j == |apps| {
        assert apps[i].bundleId in Ids(apps);
      } else {
        assert both[j] == apps[j];
      }
    }
  }

  // -----------------------------------------------------------------------
  // Windows uninstall-registry entries
  // -----------------------------------------------------------------------

  /** A display-name fragment and the application it identifies. */
  datatype AppPattern = AppPattern(pattern: string, id: string, name: string, category: AppCategory, exePatterns: seq<string>)

  const VsCodeName: string := "Visual Studio Code"

  /** The patterns in the order they are tried. */
  const AppPatterns: seq<AppPattern> := [
    AppPattern("IntelliJ IDEA", "com.jetbrains.intellij", "IntelliJ IDEA", Editor, ["bin/idea64.exe"]),
    AppPattern("WebStorm", "com.jetbrains.WebStorm", "WebStorm", Editor, ["bin/webstorm64.exe"]),
    AppPattern("PyCharm", "com.jetbrains.pycharm", "PyCharm", Editor, ["bin/pycharm64.exe"]),
    AppPattern("GoLand", "com.jetbrains.goland", "GoLand", Editor, ["bin/goland64.exe"]),
    AppPattern("CLion", "com.jetbrains.CLion", "CLion", Editor, ["bin/clion64.exe"]),
    AppPattern("RustRover", "com.jetbrains.rustrover", "RustRover", Editor, ["bin/rustrover64.exe"]),
    AppPattern("Rider", "com.jetbrains.rider", "Rider", Editor, ["bin/rider64.exe"]),
    AppPattern("PhpStorm", "com.jetbrains.PhpStorm", "PhpStorm", Editor, ["bin/phpstorm64.exe"]),
    AppPattern("DataGrip", "com.jetbrains.datagrip", "DataGrip", Editor, ["bin/datagrip64.exe"]),
    AppPattern("Android Studio", "com.google.android.studio", "Android Studio", Editor, ["bin/studio64.exe"]),
    AppPattern("Fleet", "com.jetbrains.fleet", "Fleet", Editor, ["Fleet.exe"]),
    AppPattern(VsCodeName, "com.microsoft.VSCode", "VS Code", Editor, ["Code.exe"]),
    AppPattern("Microsoft " + VsCodeName, "com.microsoft.VSCode", "VS Code", Editor, ["Code.exe"]),
    AppPattern("VSCodium", "com.vscodium.codium", "VSCodium", Editor, ["VSCodium.exe"]),
    AppPattern("Cursor", "com.todesktop.230313mzl4w4u92", "Cursor", Editor, ["Cursor.exe"]),
    AppPattern("Windsurf", "com.exafunction.windsurf", "Windsurf", Editor, ["Windsurf.exe"]),
    AppPattern("Zed", "dev.zed.Zed", "Zed", Editor, ["Zed.exe", "zed.exe"]),
    AppPattern("Sublime Text", "com.sublimetext.4", "Sublime Text", Editor, ["sublime_text.exe"]),
    AppPattern("Notepad++", "notepad++", "Notepad++", Editor, ["notepad++.exe"]),
    AppPattern("WezTerm", "org.wezfurlong.wezterm", "WezTerm", Terminal, ["wezterm-gui.exe"]),
    AppPattern("Alacritty", "org.alacritty", "Alacritty", Terminal, ["alacritty.exe"]),
    AppPattern("Hyper", "co.zeit.hyper", "Hyper", Terminal, ["Hyper.exe"]),
    AppPattern("Tabby", "org.tabby", "Tabby", Terminal, ["Tabby.exe"]),
    AppPattern("Git version", "git.bash", "Git Bash", Terminal, ["git-bash.exe"]),
    AppPattern("GitHub Desktop", "com.github.GitHubClient", "GitHub Desktop", Editor, ["GitHubDesktop.exe"])
  ]

  /**
   * One registry entry, as the text captured after `DisplayName`,
   * `InstallLocation` and `DisplayIcon` (`None` when the entry has no such value).
   */
  datatype RegistryEntry = RegistryEntry(displayName: Option<string>, installLocation: Option<string>, displayIcon: Option<string>)

  predicate PatternMatches(table: seq<AppPattern>, displayName: string, ids: set<string>, k: nat)
    requires k < |table|
  {
    Contains(displayName, table[k].pattern) && table[k].id !in ids
  }

  /** The first pattern from index `k` on that occurs in the name and whose id is not detected yet. */
  function MatchFrom(table: seq<AppPattern>, displayName: string, ids: set<string>, k: nat): (r: Option<nat>)
    requires k <= |table|
    ensures r.Some? ==> k <= r.value < |table| && PatternMatches(table, displayName, ids, r.value)
    ensures r.Some? ==> forall j :: k <= j < r.value ==> !PatternMatches(table, displayName, ids, j)
    ensures r.None? ==> forall j :: k <= j < |table| ==> !PatternMatches(table, displayName, ids, j)
    decreases |table| - k
  {
    if k == |table| then None
    else if PatternMatches(table, displayName, ids, k) then Some(k)
    else MatchFrom(table, displayName, ids, k + 1)
  }

  /**
   * "Microsoft Visual Studio Code" contains "Visual Studio Code", which is
   * tried first and has the same id, so the longer pattern never decides
   * an entry.
   */
  lemma LongVsCodePatternNeverMatches(displayName: string, ids: set<string>)
    ensures MatchFrom(AppPatterns, displayName, ids, 0) != Some(12)
  {
    var r := MatchFrom(AppPatterns, displayName, ids, 0);
    if r == Some(12) {
      VsCodePatterns();
      ContainsSuffix(displayName, "Microsoft ", AppPatterns[11].pattern);
      assert PatternMatches(AppPatterns, displayName, ids, 11);
    }
  }

  lemma VsCodePatterns()
    ensures AppPatterns[12].pattern == "Microsoft " + AppPatterns[11].pattern
    ensures AppPatterns[12].id == AppPatterns[11].id
  {
  }

  /**
   * The DisplayIcon value, trimmed, up to its first comma (the icon index
   * follows it), with every `"` removed.
   */
  function IconCandidate(raw: string): (r: string)
    ensures var t, first := Trim(raw), Split(Trim(raw), ',')[0];
            StartsWith(t, first) && ',' !in first && (|first| == |t| || t[|first|] == ',')
            && r == Filter(first, NotChar('"'))
    ensures '"' !in r && ',' !in r
  {
    var beforeComma := Split(Trim(raw), ',')[0];
    SplitFirst(Trim(raw), ',');
    ReplaceByNothing(beforeComma, '"');
    assert forall d :: d in ReplaceAll(beforeComma, '"', "") ==> d in beforeComma;
    ReplaceAll(beforeComma, '"', "")
  }

  /**
   * Whether `join(location, pattern)` names a file that exists. `path.join`
   * never yields the empty path and `existsSync('')` is false, so an empty
   * join never counts as existing.
   */
  predicate ExistsAt(probe: Probe, location: string, pattern: string) {
    probe.join(location, pattern) != "" && probe.pathExists(probe.join(location, pattern))
  }

  /** The first `join(location, pattern)` that exists, or `""`. */
  function FirstExisting(probe: Probe, location: string, patterns: seq<string>): (r: string)
    ensures r != "" ==> exists i :: 0 <= i < |patterns| && r == probe.join(location, patterns[i])
                          && ExistsAt(probe, location, patterns[i])
                          && forall j :: 0 <= j < i ==> !ExistsAt(probe, location, patterns[j])
    ensures r == "" <==> forall i :: 0 <= i < |patterns| ==> !ExistsAt(probe, location, patterns[i])
  {
    if patterns == [] then ""
    else if ExistsAt(probe, location, patterns[0]) then probe.join(location, patterns[0])
    else
      var rest := FirstExisting(probe, location, patterns[1..]);
      assert forall i :: 1 <= i < |patterns| ==> patterns[i] == patterns[1..][i - 1];
      rest
  }

  /** The DisplayIcon candidate names an existing `.exe`, and is taken as it is. */
  predicate IconUsable(probe: Probe, e: RegistryEntry) {
    e.displayIcon.Some? && EndsWith(IconCandidate(e.displayIcon.value), ".exe")
    && probe.pathExists(IconCandidate(e.displayIcon.value))
  }

  /** The executable for an entry matched to `app`: the icon path, else an existing install-location path, else `""`. */
  function ExePathFor(probe: Probe, e: RegistryEntry, app: AppPattern): (r: string)
    ensures IconUsable(probe, e) ==> r == IconCandidate(e.displayIcon.value)
    ensures !IconUsable(probe, e) && e.installLocation.Some? ==>
              r == FirstExisting(probe, Trim(e.installLocation.value), app.exePatterns)
    ensures !IconUsable(probe, e) && e.installLocation.None? ==> r == ""
    ensures r == "" <==> !IconUsable(probe, e)
                         && (e.installLocation.None?
                             || forall i :: 0 <= i < |app.exePatterns| ==>
                                  !ExistsAt(probe, Trim(e.installLocation.value), app.exePatterns[i]))
    ensures r != "" ==> probe.pathExists(r)
  {
    if IconUsable(probe, e) then IconCandidate(e.displayIcon.value)
    else if e.installLocation.Some? then FirstExisting(probe, Trim(e.installLocation.value), app.exePatterns)
    else ""
  }

  /** What one entry adds to the apps found so far. */
  function RegistryStep(probe: Probe, table: seq<AppPattern>, found: seq<DetectedApp>, e: RegistryEntry): seq<DetectedApp> {
    if e.displayName.None? then found
    else
      match MatchFrom(table, Trim(e.displayName.value), Ids(found), 0)
      case None => found
      case Some(k) =>
        var exe := ExePathFor(probe, e, table[k]);
        if exe != "" then found + [DetectedApp(table[k].name, table[k].id, table[k].category, exe)]
        else found
  }

  /** The apps found in the registry entries, taken in order. */
  function RegistryApps(probe: Probe, table: seq<AppPattern>, entries: seq<RegistryEntry>): seq<DetectedApp>
    decreases |entries|
  {
    if entries == [] then []
    else
      var n := |entries| - 1;
      RegistryStep(probe, table, RegistryApps(probe, table, entries[..n]), entries[n])
  }

  /**
   * The step adds at most one app: the matched pattern's, at a path that
   * exists, under an id not yet present. Only the first matching pattern is
   * tried: when it yields no executable the entry adds nothing, whatever a
   * later pattern would have matched.
   */
  lemma RegistryStepAdds(probe: Probe, table: seq<AppPattern>, found: seq<DetectedApp>, e: RegistryEntry)
    ensures var r := RegistryStep(probe, table, found, e);
      r == found
      || (e.displayName.Some? && r == found + [r[|found|]] && r[|found|].bundleId !in Ids(found)
          && RegistryApp(probe, table, r[|found|]))
    ensures e.displayName.None? ==> RegistryStep(probe, table, found, e) == found
    ensures e.displayName.Some? ==>
      match MatchFrom(table, Trim(e.displayName.value), Ids(found), 0)
      case None => RegistryStep(probe, table, found, e) == found
      case Some(k) =>
        k < |table| && table[k].id !in Ids(found) && Contains(Trim(e.displayName.value), table[k].pattern)
        && var exe := ExePathFor(probe, e, table[k]);
        (exe == "" ==> RegistryStep(probe, table, found, e) == found)
        && (exe != "" ==> RegistryStep(probe, table, found, e)
                          == found + [DetectedApp(table[k].name, table[k].id, table[k].category, exe)])
  {
    var r := RegistryStep(probe, table, found, e);
    if r != found {
      var k := MatchFrom(table, Trim(e.displayName.value), Ids(found), 0).value;
      assert FromPattern(table, r[|found|], k);
    }
  }

  /** `a` carries the name, id and category of pattern `k`. */
  predicate FromPattern(table: seq<AppPattern>, a: DetectedApp, k: nat)
    requires k < |table|
  {
    a.bundleId == table[k].id && a.name == table[k].name && a.category == table[k].category
  }

  /** `a` carries the name, id and category of some pattern of the table, and its path exists. */
  ghost predicate RegistryApp(probe: Probe, table: seq<AppPattern>, a: DetectedApp) {
    a.path != "" && probe.pathExists(a.path) && exists k :: 0 <= k < |table| && FromPattern(table, a, k)
  }

  /** The registry never yields one id twice, and each entry yields at most one app. */
  lemma {:induction false} RegistryAppsDistinct(probe: Probe, table: seq<AppPattern>, entries: seq<RegistryEntry>)
    ensures DistinctIds(RegistryApps(probe, table, entries))
    ensures |RegistryApps(probe, table, entries)| <= |entries|
    decreases |entries|
  {
    if entries != [] {
      var n := |entries| - 1;
      var found := RegistryApps(probe, table, entries[..n]);
      RegistryAppsDistinct(probe, table, entries[..n]);
      RegistryStepAdds(probe, table, found, entries[n]);
      var r := RegistryApps(probe, table, entries);
      assert r == RegistryStep(probe, table, found, entries[n]);
      if r != found {
        DistinctIdsAppend(found, r[|found|]);
      }
    }
  }

  /** Every app found in the registry is one of the pattern table's, at a path that exists. */
  lemma {:induction false} RegistryAppsFromTable(probe: Probe, table: seq<AppPattern>, entries: seq<RegistryEntry>)
    ensures forall i :: 0 <= i < |RegistryApps(probe, table, entries)| ==> RegistryApp(probe, table, RegistryApps(probe, table, entries)[i])
    decreases |entries|
  {
    if entries != [] {
      var n := |entries| - 1;
      var found := RegistryApps(probe, table, entries[..n]);
      RegistryAppsFromTable(probe, table, entries[..n]);
      RegistryStepAdds(probe, table, found, entries[n]);
      var r := RegistryApps(probe, table, entries);
      assert r == RegistryStep(probe, table, found, entries[n]);
      assert r[..|found|] == found;
      forall i | 0 <= i < |r|
        ensures RegistryApp(probe, table, r[i])
      {
        if i < |found| {
          assert r[i] == found[i];
        }
      }
    }
  }

  /** An entry without a display name adds nothing. */
  lemma NamelessEntryIgnored(probe: Probe, table: seq<AppPattern>, entries: seq<RegistryEntry>, e: RegistryEntry)
    requires e.displayName.None?
    ensures RegistryApps(probe, table, entries + [e]) == RegistryApps(probe, table, entries)
  {
    assert (entries + [e])[..|entries|] == entries;
  }

  /** The first matching pattern index for a display name: the loop over the pattern table. */
  method MatchPattern(table: seq<AppPattern>, displayName: string, ids: set<string>) returns (k: Option<nat>)
    ensures k == MatchFrom(table, displayName, ids, 0)
  {
    var i := 0;
    while i < |table|
      invariant 0 <= i <= |table|
      invariant MatchFrom(table, displayName, ids, 0) == MatchFrom(table, displayName, ids, i)
    {
      if Contains(displayName, table[i].pattern) && table[i].id !in ids {
        return Some(i);
      }
      i := i + 1;
    }
    return None;
  }

  /** The executable for a matched entry: the icon first, then the install-location loop. */
  method FindRegistryExe(probe: Probe, e: RegistryEntry, app: AppPattern) returns (exePath: string)
    ensures exePath == ExePathFor(probe, e, app)
  {
    exePath := "";
    if e.displayIcon.Some? {
      var iconPath := IconCandidate(e.displayIcon.value);
      if EndsWith(iconPath, ".exe") && probe.pathExists(iconPath) {
        exePath := iconPath;
      }
    }
    if exePath == "" && e.installLocation.Some? {
      var installLocation := Trim(e.installLocation.value);
      var j := 0;
      while j < |app.exePatterns|
        invariant 0 <= j <= |app.exePatterns|
        invariant FirstExisting(probe, installLocation, app.exePatterns)
                  == FirstExisting(probe, installLocation, app.exePatterns[j..])
      {
        assert app.exePatterns[j..][1..] == app.exePatterns[j + 1..];
        var testPath := probe.join(installLocation, app.exePatterns[j]);
        if testPath != "" && probe.pathExists(testPath) {
          exePath := testPath;
          return;
        }
        j := j + 1;
      }
    }
  }

  /** `detectWindowsAppsFromRegistry` over the entries of the three uninstall keys, in order. */
  method DetectFromRegistry(probe: Probe, table: seq<AppPattern>, entries: seq<RegistryEntry>) returns (detected: seq<DetectedApp>)
    ensures detected == RegistryApps(probe, table, entries)
  {
    detected := [];
    var detectedIds: set<string> := {};
    var i := 0;
    while i < |entries|
      invariant 0 <= i <= |entries|
      invariant detected == RegistryApps(probe, table, entries[..i])
      invariant detectedIds == Ids(detected)
    {
      assert entries[..i + 1][..i] == entries[..i];
      var e := entries[i];
      if e.displayName.Some? {
        var k := MatchPattern(table, Trim(e.displayName.value), detectedIds);
        if k.Some? {
          var app := table[k.value];
          var exePath := FindRegistryExe(probe, e, app);
          if exePath != "" {
            IdsAppend(detected, DetectedApp(app.name, app.id, app.category, exePath));
            detected := detected + [DetectedApp(app.name, app.id, app.category, exePath)];
            detectedIds := detectedIds + {app.id};
          }
        }
      }
      i := i + 1;
    }
    assert entries[..i] == entries;
  }

  // -----------------------------------------------------------------------
  // Predefined Windows and Linux apps
  // -----------------------------------------------------------------------

  /** A Windows exe path is taken as a file path iff it contains a backslash or a slash. */
  predicate IsAbsolutePath(exePath: string) {
    '\\' in exePath || '/' in exePath
  }

  /** Where a Windows exe path leads: the path itself if it exists, else the first line of `where`'s trimmed output; `""` for nothing. */
  function ResolveExe(probe: Probe, exePath: string): (r: string)
    ensures IsAbsolutePath(exePath) ==> (r == exePath && probe.pathExists(exePath)) || (r == "" && !probe.pathExists(exePath))
    ensures !IsAbsolutePath(exePath) && probe.where(exePath).None? ==> r == ""
    ensures !IsAbsolutePath(exePath) && probe.where(exePath).Some? ==>
              var t := Trim(probe.where(exePath).value);
              StartsWith(t, r) && '\n' !in r && (|r| == |t| || t[|r|] == '\n')
  {
    if IsAbsolutePath(exePath) then (if probe.pathExists(exePath) then exePath else "")
    else match probe.where(exePath)
      case None => ""
      case Some(stdout) =>
        SplitFirst(Trim(stdout), '\n');
        Split(Trim(stdout), '\n')[0]
  }

  /**
   * `where` ends its lines with CR LF. When it prints more than one line,
   * trimming removes only the outer whitespace, so the first line, and with
   * it the resolved path, keeps its carriage return.
   */
  lemma WhereFirstLineKeepsCarriageReturn(probe: Probe, exePath: string, k: nat)
    requires !IsAbsolutePath(exePath) && probe.where(exePath).Some?
    requires var t := Trim(probe.where(exePath).value);
             k + 1 < |t| && t[k] == '\r' && t[k + 1] == '\n' && '\n' !in t[..k]
    ensures var r := ResolveExe(probe, exePath);
            r == Trim(probe.where(exePath).value)[..k + 1] && r[k] == '\r'
  {
    var t := Trim(probe.where(exePath).value);
    var r := ResolveExe(probe, exePath);
    assert r == t[..|r|];
    assert forall i :: 0 <= i < |r| ==> t[i] != '\n';
    assert forall i :: 0 <= i < k ==> t[i] == t[..k][i];
  }

  /** Where a Linux command leads: the trimmed output of `which`, `""` for nothing. */
  function ResolveCommand(probe: Probe, command: string): string {
    match probe.which(command)
    case None => ""
    case Some(stdout) => Trim(stdout)
  }

  /** The first candidate that resolves, by `resolve`, to a non-empty path; `""` if none does. */
  function FirstResolved(resolve: string -> string, paths: seq<string>): (r: string)
    ensures r != "" ==> exists i :: 0 <= i < |paths| && r == resolve(paths[i]) && forall j :: 0 <= j < i ==> resolve(paths[j]) == ""
    ensures r == "" ==> forall i :: 0 <= i < |paths| ==> resolve(paths[i]) == ""
  {
    if paths == [] then ""
    else if resolve(paths[0]) != "" then resolve(paths[0])
    else
      var rest := FirstResolved(resolve, paths[1..]);
      assert forall i :: 1 <= i < |paths| ==> paths[i] == paths[1..][i - 1];
      rest
  }

  /** The first-resolving-path loop: try the candidates in order and stop at the first hit. */
  method FirstResolvedPath(resolve: string -> string, paths: seq<string>) returns (found: string)
    ensures found == FirstResolved(resolve, paths)
  {
    var j := 0;
    while j < |paths|
      invariant 0 <= j <= |paths|
      invariant FirstResolved(resolve, paths) == FirstResolved(resolve, paths[j..])
    {
      assert paths[j..][1..] == paths[j + 1..];
      var resolved := resolve(paths[j]);
      if resolved != "" {
        return resolved;
      }
      j := j + 1;
    }
    return "";
  }

  /** The resolver `detectWindowsApps` applies to each exe path. */
  function ExeResolver(probe: Probe): string -> string {
    exePath => ResolveExe(probe, exePath)
  }

  /** The resolver `detectLinuxApps` applies to each command. */
  function CommandResolver(probe: Probe): string -> string {
    command => ResolveCommand(probe, command)
  }

  /** `app` detected at its first resolving path. */
  function Found(resolve: string -> string, app: KnownApp): DetectedApp {
    DetectedApp(app.name, app.id, app.category, FirstResolved(resolve, app.paths))
  }

  /** What one predefined Windows app adds: nothing when its id is already there, else its first resolving path. */
  function WindowsStep(resolve: string -> string, found: seq<DetectedApp>, app: KnownApp): seq<DetectedApp> {
    if app.id in Ids(found) then found
    else if FirstResolved(resolve, app.paths) != "" then found + [Found(resolve, app)]
    else found
  }

  /** `detectWindowsApps`: the registry apps, then the predefined apps not already found. */
  function WindowsApps(resolve: string -> string, registry: seq<DetectedApp>, catalogue: seq<KnownApp>): seq<DetectedApp>
    decreases |catalogue|
  {
    if catalogue == [] then registry
    else
      var n := |catalogue| - 1;
      WindowsStep(resolve, WindowsApps(resolve, registry, catalogue[..n]), catalogue[n])
  }

  /** One more predefined app is one more step. */
  lemma WindowsAppsSnoc(resolve: string -> string, registry: seq<DetectedApp>, catalogue: seq<KnownApp>, i: nat)
    requires i < |catalogue|
    ensures WindowsApps(resolve, registry, catalogue[..i + 1])
            == WindowsStep(resolve, WindowsApps(resolve, registry, catalogue[..i]), catalogue[i])
  {
    assert catalogue[..i + 1][..i] == catalogue[..i];
  }

  /** The registry apps come first, unchanged, and each predefined app adds at most one entry. */
  lemma {:induction false} WindowsAppsRegistryFirst(resolve: string -> string, registry: seq<DetectedApp>, catalogue: seq<KnownApp>)
    ensures |registry| <= |WindowsApps(resolve, registry, catalogue)| <= |registry| + |catalogue|
    ensures WindowsApps(resolve, registry, catalogue)[..|registry|] == registry
    decreases |catalogue|
  {
    if catalogue != [] {
      var n := |catalogue| - 1;
      WindowsAppsRegistryFirst(resolve, registry, catalogue[..n]);
      var found := WindowsApps(resolve, registry, catalogue[..n]);
      var r := WindowsApps(resolve, registry, catalogue);
      assert r == found || r == found + [Found(resolve, catalogue[n])];
      assert r[..|registry|] == found[..|registry|];
    }
  }

  /** A predefined app whose id is already detected is skipped, so distinct ids stay distinct. */
  lemma {:induction false} WindowsAppsDistinct(resolve: string -> string, registry: seq<DetectedApp>, catalogue: seq<KnownApp>)
    requires DistinctIds(registry)
    ensures DistinctIds(WindowsApps(resolve, registry, catalogue))
    decreases |catalogue|
  {
    if catalogue != [] {
      var n := |catalogue| - 1;
      WindowsAppsDistinct(resolve, registry, catalogue[..n]);
      var found := WindowsApps(resolve, registry, catalogue[..n]);
      var r := WindowsApps(resolve, registry, catalogue);
      if r != found {
        assert r == found + [Found(resolve, catalogue[n])];
        DistinctIdsAppend(found, Found(resolve, catalogue[n]));
      }
    }
  }

  /** Every entry after the registry's is a predefined app at its first resolving path. */
  lemma {:induction false} WindowsAppsFromCatalogue(resolve: string -> string, registry: seq<DetectedApp>, catalogue: seq<KnownApp>)
    ensures forall a :: a in WindowsApps(resolve, registry, catalogue) ==>
              a in registry || (a.path != "" && exists j :: 0 <= j < |catalogue| && a == Found(resolve, catalogue[j]))
    decreases |catalogue|
  {
    if catalogue != [] {
      var n := |catalogue| - 1;
      WindowsAppsFromCatalogue(resolve, registry, catalogue[..n]);
      assert forall j :: 0 <= j < n ==> catalogue[..n][j] == catalogue[j];
    }
  }

  /** Every predefined app with a resolving path ends up detected, by itself or by an earlier entry with its id. */
  lemma {:induction false} WindowsAppsComplete(resolve: string -> string, registry: seq<DetectedApp>, catalogue: seq<KnownApp>)
    ensures forall j :: 0 <= j < |catalogue| && FirstResolved(resolve, catalogue[j].paths) != "" ==>
              catalogue[j].id in Ids(WindowsApps(resolve, registry, catalogue))
    decreases |catalogue|
  {
    if catalogue != [] {
      var n := |catalogue| - 1;
      WindowsAppsComplete(resolve, registry, catalogue[..n]);
      var found := WindowsApps(resolve, registry, catalogue[..n]);
      var r := WindowsApps(resolve, registry, catalogue);
      assert forall j :: 0 <= j < n ==> catalogue[..n][j] == catalogue[j];
      if r != found {
        IdsAppend(found, Found(resolve, catalogue[n]));
      }
    }
  }

  /** Every Linux app contributes its first command that `which` resolves, and nothing when none does. */
  function LinuxApps(resolve: string -> string, catalogue: seq<KnownApp>): seq<DetectedApp>
    decreases |catalogue|
  {
    if catalogue == [] then []
    else
      var n := |catalogue| - 1;
      var found := LinuxApps(resolve, catalogue[..n]);
      if FirstResolved(resolve, catalogue[n].paths) != "" then found + [Found(resolve, catalogue[n])] else found
  }

  /** One more Linux app adds its entry when one of its commands resolves. */
  lemma LinuxAppsSnoc(resolve: string -> string, catalogue: seq<KnownApp>, i: nat)
    requires i < |catalogue|
    ensures LinuxApps(resolve, catalogue[..i + 1])
            == var found := LinuxApps(resolve, catalogue[..i]);
               if FirstResolved(resolve, catalogue[i].paths) != "" then found + [Found(resolve, catalogue[i])] else found
  {
    assert catalogue[..i + 1][..i] == catalogue[..i];
  }

  /** `detectLinuxApps` yields, in list order, exactly the Linux apps with a resolving command, each at its first one. */
  lemma {:induction false} LinuxAppsOnePerApp(resolve: string -> string, catalogue: seq<KnownApp>)
    ensures |LinuxApps(resolve, catalogue)| == |Resolvable(resolve, catalogue)|
    ensures forall i :: 0 <= i < |LinuxApps(resolve, catalogue)| ==>
              LinuxApps(resolve, catalogue)[i] == Found(resolve, Resolvable(resolve, catalogue)[i])
    decreases |catalogue|
  {
    if catalogue != [] {
      var n := |catalogue| - 1;
      var last := catalogue[n];
      LinuxAppsOnePerApp(resolve, catalogue[..n]);
      assert catalogue == catalogue[..n] + [last];
      FilterAppend(catalogue[..n], [last], HasResolvingPath(resolve));
      assert [last][1..] == [];
      var rest := Filter([last], HasResolvingPath(resolve));
      assert rest == (if HasResolvingPath(resolve)(last) then [last] else []);
    }
  }

  /** The app has a command or path that resolves. */
  function HasResolvingPath(resolve: string -> string): KnownApp -> bool {
    (app: KnownApp) => FirstResolved(resolve, app.paths) != ""
  }

  /** The Linux apps that have a resolving command, in list order. */
  function Resolvable(resolve: string -> string, catalogue: seq<KnownApp>): seq<KnownApp> {
    Filter(catalogue, HasResolvingPath(resolve))
  }

  // -----------------------------------------------------------------------
  // The detector and its cache
  // -----------------------------------------------------------------------

  /** What a first detection on `platform` yields, given the host's answers; the macOS scan is an input. */
  function Detection(platform: Platform, probe: Probe, registry: seq<RegistryEntry>, windowsApps: seq<KnownApp>,
                     linuxApps: seq<KnownApp>, macScan: seq<DetectedApp>): seq<DetectedApp>
  {
    match platform
    case Windows => WindowsApps(ExeResolver(probe), RegistryApps(probe, AppPatterns, registry), windowsApps)
    case Mac => macScan
    case Linux => LinuxApps(CommandResolver(probe), linuxApps)
    case OtherPlatform => []
  }

  /** On Windows every id is detected at most once. */
  lemma WindowsDetectionDistinct(probe: Probe, registry: seq<RegistryEntry>, windowsApps: seq<KnownApp>,
                                 linuxApps: seq<KnownApp>, macScan: seq<DetectedApp>)
    ensures DistinctIds(Detection(Windows, probe, registry, windowsApps, linuxApps, macScan))
  {
    RegistryAppsDistinct(probe, AppPatterns, registry);
    WindowsAppsDistinct(ExeResolver(probe), RegistryApps(probe, AppPatterns, registry), windowsApps);
  }

  /** The second half of `detectWindowsApps`: each predefined app whose id is new, at its first resolving path. */
  method MergePredefined(resolve: string -> string, registryApps: seq<DetectedApp>, catalogue: seq<KnownApp>)
    returns (detected: seq<DetectedApp>)
    ensures detected == WindowsApps(resolve, registryApps, catalogue)
  {
    detected := registryApps;
    var detectedIds := Ids(detected);
    var i := 0;
    while i < |catalogue|
      invariant 0 <= i <= |catalogue|
      invariant detected == WindowsApps(resolve, registryApps, catalogue[..i])
      invariant detectedIds == Ids(detected)
    {
      WindowsAppsSnoc(resolve, registryApps, catalogue, i);
      var app := catalogue[i];
      if app.id !in detectedIds {
        var exePath := FirstResolvedPath(resolve, app.paths);
        if exePath != "" {
          var a := DetectedApp(app.name, app.id, app.category, exePath);
          assert a == Found(resolve, app);
          IdsAppend(detected, a);
          detected := detected + [a];
          detectedIds := detectedIds + {app.id};
        }
      }
      i := i + 1;
    }
    assert catalogue[..i] == catalogue;
  }

  class AppDetector {
    var detectedApps: seq<DetectedApp>
    var initialized: bool

    constructor ()
      ensures detectedApps == [] && !initialized
    {
      detectedApps := [];
      initialized := false;
    }

    /** `detectWindowsApps`: registry first, then the predefined apps not yet detected. */
    method DetectWindowsApps(probe: Probe, registry: seq<RegistryEntry>, catalogue: seq<KnownApp>)
      returns (detected: seq<DetectedApp>)
      modifies this
      ensures detected == WindowsApps(ExeResolver(probe), RegistryApps(probe, AppPatterns, registry), catalogue)
      ensures detectedApps == detected && initialized
    {
      var registryApps := DetectFromRegistry(probe, AppPatterns, registry);
      detected := MergePredefined(ExeResolver(probe), registryApps, catalogue);
      detectedApps := detected;
      initialized := true;
    }

    /** `detectLinuxApps`: each app's commands in order, stopping at the first that `which` resolves. */
    method DetectLinuxApps(probe: Probe, catalogue: seq<KnownApp>) returns (detected: seq<DetectedApp>)
      modifies this
      ensures detected == LinuxApps(CommandResolver(probe), catalogue)
      ensures detectedApps == detected && initialized
    {
      var resolve := CommandResolver(probe);
      detected := [];
      var i := 0;
      while i < |catalogue|
        invariant 0 <= i <= |catalogue|
        invariant detected == LinuxApps(resolve, catalogue[..i])
      {
        LinuxAppsSnoc(resolve, catalogue, i);
        var app := catalogue[i];
        var resolvedPath := FirstResolvedPath(resolve, app.paths);
        if resolvedPath != "" {
          detected := detected + [DetectedApp(app.name, app.id, app.category, resolvedPath)];
        }
        i := i + 1;
      }
      assert catalogue[..i] == catalogue;
      detectedApps := detected;
      initialized := true;
    }

    /**
     * `detectApps`: once initialized, the cached list, with nothing probed
     * and nothing changed. On an unknown platform the flag is set but the
     * list is left as it was.
     */
    method DetectApps(platform: Platform, probe: Probe, registry: seq<RegistryEntry>, windowsApps: seq<KnownApp>,
                      linuxApps: seq<KnownApp>, macScan: seq<DetectedApp>) returns (apps: seq<DetectedApp>)
      modifies this
      ensures old(initialized) ==> apps == old(detectedApps) && detectedApps == old(detectedApps) && initialized
      ensures !old(initialized) ==> apps == Detection(platform, probe, registry, windowsApps, linuxApps, macScan) && initialized
      ensures !old(initialized) && platform != OtherPlatform ==> detectedApps == apps
      ensures !old(initialized) && platform == OtherPlatform ==> detectedApps == old(detectedApps)
    {
      if initialized {
        return detectedApps;
      }
      match platform
      case Windows =>
        apps := DetectWindowsApps(probe, registry, windowsApps);
      case Mac =>
        detectedApps := macScan;
        initialized := true;
        apps := macScan;
      case Linux =>
        apps := DetectLinuxApps(probe, linuxApps);
      case OtherPlatform =>
        initialized := true;
        apps := [];
    }
  }

  /** A second detection returns the first one's list, whatever the host answers the second time. */
  method DetectTwice(d: AppDetector, platform: Platform, probe1: Probe, probe2: Probe, registry1: seq<RegistryEntry>,
                     registry2: seq<RegistryEntry>, windowsApps: seq<KnownApp>, linuxApps: seq<KnownApp>,
                     macScan1: seq<DetectedApp>, macScan2: seq<DetectedApp>)
    returns (first: seq<DetectedApp>, second: seq<DetectedApp>)
    requires d.detectedApps == [] && !d.initialized
    modifies d
    ensures first == Detection(platform, probe1, registry1, windowsApps, linuxApps, macScan1)
    ensures second == first
  {
    first := d.DetectApps(platform, probe1, registry1, windowsApps, linuxApps, macScan1);
    second := d.DetectApps(platform, probe2, registry2, windowsApps, linuxApps, macScan2);
  }

  // -----------------------------------------------------------------------
  // Opening a path
  // -----------------------------------------------------------------------

  /** `detectedApps.find(a => a.bundleId === bundleId)` */
  function FindApp(apps: seq<DetectedApp>, bundleId: string): (r: Option<DetectedApp>)
    ensures r.None? <==> forall i :: 0 <= i < |apps| ==> apps[i].bundleId != bundleId
    ensures r.Some? ==> exists i :: 0 <= i < |apps| && r.value == apps[i] && apps[i].bundleId == bundleId
                                    && forall j :: 0 <= j < i ==> apps[j].bundleId != bundleId
  {
    if apps == [] then None
    else if apps[0].bundleId == bundleId then Some(apps[0])
    else
      var rest := FindApp(apps[1..], bundleId);
      assert forall i :: 1 <= i < |apps| ==> apps[i] == apps[1..][i - 1];
      rest
  }

  /** PowerShell single-quoted text: every `'` doubled. */
  function QuoteSingle(s: string): string {
    ReplaceAll(s, '\'', "''")
  }

  /** Reading a single-quoted PowerShell string back: `''` is one `'`. */
  function UnquoteSingle(s: string): string
    decreases |s|
  {
    if |s| >= 2 && s[0] == '\'' && s[1] == '\'' then "'" + UnquoteSingle(s[2..])
    else if s == [] then []
    else [s[0]] + UnquoteSingle(s[1..])
  }

  /** Doubling `'` is undone by `UnquoteSingle`; PowerShell's own reading is not modelled. */
  lemma {:induction false} QuoteSingleRoundTrip(s: string)
    ensures UnquoteSingle(QuoteSingle(s)) == s
  {
    if s != [] {
      QuoteSingleRoundTrip(s[1..]);
      var q := QuoteSingle(s);
      if s[0] == '\'' {
        assert q == "''" + QuoteSingle(s[1..]);
        assert q[2..] == QuoteSingle(s[1..]);
      } else {
        assert q == [s[0]] + QuoteSingle(s[1..]);
        assert q[1..] == QuoteSingle(s[1..]);
      }
    }
  }

  /** Double-quoted shell text on Linux: every `"` preceded by a backslash. */
  function EscapeDouble(s: string): string {
    ReplaceAll(s, '"', "\\\"")
  }

  /** Reading escaped text back: a backslash followed by `"` is one `"`. */
  function UnescapeDouble(s: string): string
    decreases |s|
  {
    if |s| >= 2 && s[0] == '\\' && s[1] == '"' then "\"" + UnescapeDouble(s[2..])
    else if s == [] then []
    else [s[0]] + UnescapeDouble(s[1..])
  }

  lemma {:induction false} EscapeDoubleNoLeadingQuote(s: string)
    ensures EscapeDouble(s) == [] || EscapeDouble(s)[0] != '"'
  {
  }

  /** The Linux escaping is reversible: no two paths give the same escaped text. */
  lemma {:induction false} EscapeDoubleRoundTrip(s: string)
    ensures UnescapeDouble(EscapeDouble(s)) == s
  {
    if s != [] {
      EscapeDoubleRoundTrip(s[1..]);
      var e := EscapeDouble(s);
      if s[0] == '"' {
        assert e == "\\\"" + EscapeDouble(s[1..]);
        assert e[2..] == EscapeDouble(s[1..]);
      } else {
        assert e == [s[0]] + EscapeDouble(s[1..]);
        assert e[1..] == EscapeDouble(s[1..]);
        EscapeDoubleNoLeadingQuote(s[1..]);
      }
    }
  }

  /** Every unescaped `"` in the Linux argument is preceded by a backslash. */
  lemma {:induction false} EscapeDoubleQuotesGuarded(s: string)
    ensures forall i :: 0 <= i < |EscapeDouble(s)| && EscapeDouble(s)[i] == '"' ==> i > 0 && EscapeDouble(s)[i - 1] == '\\'
  {
    if s != [] {
      EscapeDoubleQuotesGuarded(s[1..]);
      var e := EscapeDouble(s);
      var head := if s[0] == '"' then "\\\"" else [s[0]];
      assert e == head + EscapeDouble(s[1..]);
      forall i | 0 <= i < |e| && e[i] == '"'
        ensures i > 0 && e[i - 1] == '\\'
      {
        if i >= |head| {
          assert e[i] == EscapeDouble(s[1..])[i - |head|];
          EscapeDoubleNoLeadingQuote(s[1..]);
        }
      }
    }
  }

  /** The Explorer path: every `/` becomes `\`, every other character stays. */
  function BackslashPath(path: string): (r: string)
    ensures |r| == |path| && '/' !in r
    ensures forall i :: 0 <= i < |path| ==> r[i] == (if path[i] == '/' then '\\' else path[i])
  {
    ReplaceCharAt(path, '/', '\\');
    ReplaceAll(path, '/', "\\")
  }

  /** A JavaScript number in a template literal (line numbers are integers here). */
  function LineText(line: int): string {
    IntToString(line)
  }

  predicate IsVsCodeFamily(bundleId: string) {
    Contains(bundleId, "com.microsoft.VSCode") || Contains(bundleId, "com.todesktop.230313mzl4w4u92")
    || Contains(bundleId, "com.visualstudio.code")
  }

  /** A JetBrains id that the Zed and Sublime Text checks, tried earlier, do not catch. */
  predicate IsJetBrains(bundleId: string) {
    Contains(bundleId, "com.jetbrains") && !Contains(bundleId, "dev.zed.Zed") && !Contains(bundleId, "com.sublimetext")
  }

  /** `getLineArgs`: the arguments that make an editor open `path` at `line`. */
  function GetLineArgs(bundleId: string, path: string, line: int): (r: string)
    ensures IsVsCodeFamily(bundleId) ==> r == "--args \"" + path + "\" -g \"" + path + ":" + LineText(line) + "\""
    ensures !IsVsCodeFamily(bundleId) && IsJetBrains(bundleId) ==> r == "--args --line " + LineText(line) + " \"" + path + "\""
    ensures !IsVsCodeFamily(bundleId) && !IsJetBrains(bundleId) ==> r == "\"" + path + ":" + LineText(line) + "\""
  {
    if IsVsCodeFamily(bundleId) then "--args \"" + path + "\" -g \"" + path + ":" + LineText(line) + "\""
    else if Contains(bundleId, "dev.zed.Zed") then "\"" + path + ":" + LineText(line) + "\""
    else if Contains(bundleId, "com.sublimetext") then "\"" + path + ":" + LineText(line) + "\""
    else if Contains(bundleId, "com.jetbrains") then "--args --line " + LineText(line) + " \"" + path + "\""
    else if Contains(bundleId, "com.github.atom") then "\"" + path + ":" + LineText(line) + "\""
    else "\"" + path + ":" + LineText(line) + "\""
  }

  /** The `options` of `openPath` that decide the command; JavaScript truthiness makes line 0 and an empty workspace absent. */
  datatype OpenOptions = OpenOptions(line: Option<int>, workspacePath: Option<string>)

  predicate HasLine(o: OpenOptions) {
    o.line.Some? && o.line.value != 0
  }

  predicate HasWorkspace(o: OpenOptions) {
    o.workspacePath.Some? && o.workspacePath.value != ""
  }

  /** What `openPath` runs: a shell command, or on macOS the editor's own command-line launcher for a workspace. */
  datatype Launch = Shell(command: string) | EditorWithFiles(bundleId: string, appPath: string, workspacePath: string)

  /** `Start-Process` of `exe` in PowerShell, with the rest of the arguments, all inside one `"…"`. */
  function PowerShellStart(exe: string, rest: string): string {
    "powershell -Command \"Start-Process -FilePath '" + QuoteSingle(exe) + "' " + rest + "\""
  }

  /** The Windows command: the exe and the path each between `'…'` with `'` doubled, or Explorer's `start`. */
  function WindowsLaunch(app: DetectedApp, path: string, bundleId: string, o: OpenOptions): (r: string)
    ensures var start := "powershell -Command \"Start-Process -FilePath '" + QuoteSingle(app.path) + "' ";
            && (bundleId == "windows.terminal" ==>
                  r == start + "-ArgumentList '-d','" + QuoteSingle(path) + "'" + "\"")
            && (bundleId != "windows.terminal" && app.category == Terminal ==>
                  r == start + "-WorkingDirectory '" + QuoteSingle(path) + "'" + "\"")
            && (bundleId == "windows.explorer" && app.category != Terminal ==>
                  r == "start \"\" \"" + BackslashPath(path) + "\"")
            && (bundleId != "windows.terminal" && bundleId != "windows.explorer" && app.category != Terminal ==>
                  r == start + "-ArgumentList '" + QuoteSingle(path)
                       + (if HasLine(o) then ":" + LineText(o.line.value) else "") + "'" + "\"")
  {
    if bundleId == "windows.terminal" then
      PowerShellStart(app.path, "-ArgumentList '-d','" + QuoteSingle(path) + "'")
    else if app.category == Terminal then
      PowerShellStart(app.path, "-WorkingDirectory '" + QuoteSingle(path) + "'")
    else if bundleId == "windows.explorer" then
      "start \"\" \"" + BackslashPath(path) + "\""
    else
      var pathArg := if HasLine(o) then QuoteSingle(path) + ":" + LineText(o.line.value) else QuoteSingle(path);
      PowerShellStart(app.path, "-ArgumentList '" + pathArg + "'")
  }

  /**
   * The Linux terminals that take their working directory by a flag, in the
   * order their names are looked for in the command, each with its flag.
   */
  const TerminalFlags: seq<(string, string)> := [
    ("gnome-terminal", "--working-directory="),
    ("konsole", "--workdir "),
    ("alacritty", "--working-directory "),
    ("kitty", "--directory "),
    ("tilix", "--working-directory="),
    ("terminator", "--working-directory=")
  ]

  /** The flag of the first terminal from index `k` on whose name the command contains. */
  function FlagFrom(command: string, k: nat): (r: Option<string>)
    requires k <= |TerminalFlags|
    ensures r.Some? ==> exists i :: k <= i < |TerminalFlags| && Contains(command, TerminalFlags[i].0)
                                    && r.value == TerminalFlags[i].1
                                    && forall j :: k <= j < i ==> !Contains(command, TerminalFlags[j].0)
    ensures r.None? <==> forall i :: k <= i < |TerminalFlags| ==> !Contains(command, TerminalFlags[i].0)
    decreases |TerminalFlags| - k
  {
    if k == |TerminalFlags| then None
    else if Contains(command, TerminalFlags[k].0) then Some(TerminalFlags[k].1)
    else FlagFrom(command, k + 1)
  }

  /**
   * The flag that gives a known Linux terminal its working directory, by the
   * first terminal name the command contains; none for any other command.
   */
  function WorkingDirectoryFlag(command: string): (r: Option<string>)
    ensures r.Some? ==> exists i :: 0 <= i < |TerminalFlags| && Contains(command, TerminalFlags[i].0)
                                    && r.value == TerminalFlags[i].1
                                    && forall j :: 0 <= j < i ==> !Contains(command, TerminalFlags[j].0)
    ensures r.None? <==> !Contains(command, "gnome-terminal") && !Contains(command, "konsole")
                         && !Contains(command, "alacritty") && !Contains(command, "kitty")
                         && !Contains(command, "tilix") && !Contains(command, "terminator")
    ensures Contains(command, "gnome-terminal") ==> r == Some("--working-directory=")
    ensures !Contains(command, "gnome-terminal") && Contains(command, "konsole") ==> r == Some("--workdir ")
    ensures !Contains(command, "gnome-terminal") && !Contains(command, "konsole") && Contains(command, "alacritty")
            ==> r == Some("--working-directory ")
    ensures !Contains(command, "gnome-terminal") && !Contains(command, "konsole") && !Contains(command, "alacritty")
            && Contains(command, "kitty")
            ==> r == Some("--directory ")
    ensures !Contains(command, "gnome-terminal") && !Contains(command, "konsole") && !Contains(command, "alacritty")
            && !Contains(command, "kitty") && (Contains(command, "tilix") || Contains(command, "terminator"))
            ==> r == Some("--working-directory=")
  {
    assert FlagFrom(command, 6) == None;
    assert FlagFrom(command, 5) == if Contains(command, "terminator") then Some("--working-directory=") else None;
    assert FlagFrom(command, 4) == if Contains(command, "tilix") then Some("--working-directory=") else FlagFrom(command, 5);
    assert FlagFrom(command, 3) == if Contains(command, "kitty") then Some("--directory ") else FlagFrom(command, 4);
    assert FlagFrom(command, 2) == if Contains(command, "alacritty") then Some("--working-directory ") else FlagFrom(command, 3);
    assert FlagFrom(command, 1) == if Contains(command, "konsole") then Some("--workdir ") else FlagFrom(command, 2);
    FlagFrom(command, 0)
  }

  /**
   * A Linux terminal started in a directory: a known terminal gets the path
   * after its working-directory flag, any other command is run after `cd`.
   */
  function LinuxTerminalLaunch(command: string, escapedPath: string): (r: string)
    ensures WorkingDirectoryFlag(command).Some? ==>
              r == "\"" + command + "\" " + WorkingDirectoryFlag(command).value + "\"" + escapedPath + "\""
    ensures WorkingDirectoryFlag(command).None? ==> r == "cd \"" + escapedPath + "\" && \"" + command + "\""
    ensures Contains(r, "\"" + escapedPath + "\"")
    ensures Contains(r, "\"" + command + "\"")
  {
    match WorkingDirectoryFlag(command)
    case Some(flag) => TerminalWithFlag(command, flag, escapedPath)
    case None =>
      var r := "cd \"" + escapedPath + "\" && \"" + command + "\"";
      ContainsInfix("cd ", "\"" + escapedPath + "\"", " && \"" + command + "\"");
      ContainsInfix("cd \"" + escapedPath + "\" && ", "\"" + command + "\"", "");
      assert r == "cd " + ("\"" + escapedPath + "\"") + (" && \"" + command + "\"");
      assert r == ("cd \"" + escapedPath + "\" && ") + ("\"" + command + "\"") + "";
      r
  }

  /** `"command" flag"path"`: a terminal told its starting directory by a flag. */
  function TerminalWithFlag(command: string, flag: string, escapedPath: string): (r: string)
    ensures r == "\"" + command + "\" " + flag + "\"" + escapedPath + "\""
    ensures Contains(r, "\"" + escapedPath + "\"")
    ensures Contains(r, "\"" + command + "\"")
  {
    var r := "\"" + command + "\" " + flag + "\"" + escapedPath + "\"";
    ContainsInfix("\"" + command + "\" " + flag, "\"" + escapedPath + "\"", "");
    ContainsInfix("", "\"" + command + "\"", " " + flag + "\"" + escapedPath + "\"");
    assert r == ("\"" + command + "\" " + flag) + ("\"" + escapedPath + "\"") + "";
    assert r == "" + ("\"" + command + "\"") + (" " + flag + "\"" + escapedPath + "\"");
    r
  }

  /** The Linux command: the path, with `"` escaped, between `"…"`, after the app's command or as its directory. */
  function LinuxLaunch(app: DetectedApp, path: string): (r: string)
    ensures Contains(r, "\"" + EscapeDouble(path) + "\"")
  {
    var escapedPath := EscapeDouble(path);
    if app.category == Terminal then LinuxTerminalLaunch(app.path, escapedPath)
    else
      var r := "\"" + app.path + "\" \"" + escapedPath + "\"";
      ContainsInfix("\"" + app.path + "\" ", "\"" + escapedPath + "\"", "");
      assert r == ("\"" + app.path + "\" ") + ("\"" + escapedPath + "\"") + "";
      r
  }

  function MacLaunch(app: DetectedApp, path: string, bundleId: string, o: OpenOptions): Launch {
    if app.category == Editor && HasWorkspace(o) then EditorWithFiles(bundleId, app.path, o.workspacePath.value)
    else if HasLine(o) && app.category == Editor then
      Shell("open -b \"" + bundleId + "\" " + GetLineArgs(bundleId, path, o.line.value))
    else Shell("open -b \"" + bundleId + "\" \"" + path + "\"")
  }

  /**
   * `openPath`: fails for an id that was not detected; otherwise builds the
   * launch for the first detected app with that id.
   */
  function OpenPath(platform: Platform, apps: seq<DetectedApp>, path: string, bundleId: string, o: OpenOptions): (r: Result<Launch, string>)
    ensures r.Err? <==> FindApp(apps, bundleId).None?
    ensures r.Err? ==> r.error == "App with bundle ID " + bundleId + " not found"
    ensures r.Ok? && r.value.EditorWithFiles? <==>
              platform !in {Windows, Linux} && r.Ok? && FindApp(apps, bundleId).value.category == Editor && HasWorkspace(o)
    ensures r.Ok? && platform == Windows ==>
              var app := FindApp(apps, bundleId).value;
              var start := "powershell -Command \"Start-Process -FilePath '" + QuoteSingle(app.path) + "' ";
              r.value.Shell?
              && (bundleId == "windows.terminal" ==>
                    r.value.command == start + "-ArgumentList '-d','" + QuoteSingle(path) + "'" + "\"")
              && (bundleId != "windows.terminal" && app.category == Terminal ==>
                    r.value.command == start + "-WorkingDirectory '" + QuoteSingle(path) + "'" + "\"")
              && (bundleId == "windows.explorer" && app.category != Terminal ==>
                    r.value.command == "start \"\" \"" + BackslashPath(path) + "\"")
              && (bundleId != "windows.terminal" && bundleId != "windows.explorer" && app.category != Terminal ==>
                    r.value.command == start + "-ArgumentList '" + QuoteSingle(path)
                                       + (if HasLine(o) then ":" + LineText(o.line.value) else "") + "'" + "\"")
    ensures r.Ok? && platform == Linux ==>
              var app := FindApp(apps, bundleId).value;
              r.value.Shell? && Contains(r.value.command, "\"" + EscapeDouble(path) + "\"")
              && (app.category == Terminal ==> r.value.command == LinuxTerminalLaunch(app.path, EscapeDouble(path)))
              && (app.category != Terminal ==> r.value.command == "\"" + app.path + "\" \"" + EscapeDouble(path) + "\"")
    ensures r.Ok? && platform !in {Windows, Linux} ==>
              var app := FindApp(apps, bundleId).value;
              (app.category == Editor && HasWorkspace(o) ==>
                 r.value == EditorWithFiles(bundleId, app.path, o.workspacePath.value))
              && (!(app.category == Editor && HasWorkspace(o)) ==>
                    r.value == Shell("open -b \"" + bundleId + "\" "
                                     + (if HasLine(o) && app.category == Editor then GetLineArgs(bundleId, path, o.line.value)
                                        else "\"" + path + "\"")))
  {
    match FindApp(apps, bundleId)
    case None => Err("App with bundle ID " + bundleId + " not found")
    case Some(app) =>
      if platform == Windows then Ok(Shell(WindowsLaunch(app, path, bundleId, o)))
      else if platform == Linux then Ok(Shell(LinuxLaunch(app, path)))
      else Ok(MacLaunch(app, path, bundleId, o))
  }

  // -----------------------------------------------------------------------
  // Application icons (macOS)
  // -----------------------------------------------------------------------

  /** The icon file named in Info.plist: trimmed, `.icns` appended when missing; nothing for empty output. */
  function IconFileName(stdout: string): (r: Option<string>)
    ensures r.Some? <==> Trim(stdout) != ""
    ensures r.Some? ==> StartsWith(r.value, Trim(stdout)) && EndsWith(r.value, ".icns")
    ensures r.Some? && EndsWith(Trim(stdout), ".icns") ==> r.value == Trim(stdout)
    ensures r.Some? && !EndsWith(Trim(stdout), ".icns") ==> |r.value| == |Trim(stdout)| + 5
  {
    var iconName := Trim(stdout);
    if iconName == "" then None
    else if EndsWith(iconName, ".icns") then Some(iconName)
    else
      assert (iconName + ".icns")[..|iconName|] == iconName;
      Some(iconName + ".icns")
  }

  /** The temporary PNG's file name: the bundle id with every `.` turned into `-`. */
  function TmpPngName(bundleId: string): (r: string)
    ensures StartsWith(r, "enso-icon-") && EndsWith(r, ".png")
    ensures |r| == |bundleId| + 14
    ensures forall i :: 0 <= i < |bundleId| ==> r[10 + i] == (if bundleId[i] == '.' then '-' else bundleId[i])
    ensures forall i :: 0 <= i < |r| - 4 ==> r[i] != '.'
  {
    ReplaceCharAt(bundleId, '.', '-');
    var middle := ReplaceAll(bundleId, '.', "-");
    var r := "enso-icon-" + middle + ".png";
    assert forall i :: 0 <= i < |bundleId| ==> r[10 + i] == middle[i];
    assert forall i :: 10 <= i < |r| - 4 ==> r[i] == middle[i - 10];
    r
  }

  /** The conversion `getAppIcon` runs: from the `.icns` file to the temporary PNG. */
  datatype IconConversion = IconConversion(icnsPath: string, tmpPng: string)

  /**
   * `getAppIcon` up to the `sips` conversion: only on macOS, only for a
   * detected app, only when Info.plist names an icon (`plistStdout` is
   * `None` when the lookup failed) and the `.icns` file exists.
   */
  function AppIcon(platform: Platform, apps: seq<DetectedApp>, bundleId: string, plistStdout: Option<string>,
                   probe: Probe, tmpDir: string): (r: Option<IconConversion>)
    ensures r.Some? ==> platform == Mac && FindApp(apps, bundleId).Some? && plistStdout.Some?
                        && IconFileName(plistStdout.value).Some? && probe.pathExists(r.value.icnsPath)
    ensures r.Some? ==> r.value.tmpPng == probe.join(tmpDir, TmpPngName(bundleId))
    ensures r.Some? ==> r.value.icnsPath == probe.join(probe.join(probe.join(FindApp(apps, bundleId).value.path, "Contents"),
                                                                  "Resources"), IconFileName(plistStdout.value).value)
    ensures platform != Mac || FindApp(apps, bundleId).None? ==> r.None?
    ensures platform == Mac && FindApp(apps, bundleId).Some? && plistStdout.Some? && IconFileName(plistStdout.value).Some?
            && probe.pathExists(probe.join(probe.join(probe.join(FindApp(apps, bundleId).value.path, "Contents"),
                                                      "Resources"), IconFileName(plistStdout.value).value))
            ==> r.Some?
  {
    match FindApp(apps, bundleId)
    case None => None
    case Some(app) =>
      if platform == Windows then None
      else if platform != Mac then None
      else if plistStdout.None? then None
      else match IconFileName(plistStdout.value)
        case None => None
        case Some(iconName) =>
          var icnsPath := probe.join(probe.join(probe.join(app.path, "Contents"), "Resources"), iconName);
          if !probe.pathExists(icnsPath) then None
          else Some(IconConversion(icnsPath, probe.join(tmpDir, TmpPngName(bundleId))))
  }
}

=== FILE: branch_selector.dfy ===
/**
 * The branch picker: the search box splits the repository's branches into
 * local ones and remote-tracking ones (those git names `remotes/...`), a
 * choice checks the branch out, and a remote branch is shown without its
 * `remotes/` prefix.
 */
module BranchSelector {
  import opened Text

  /** A branch as git lists it; `current` marks the checked-out one. */
  datatype Branch = Branch(name: string, current: bool)

  const RemotePrefix: string := "remotes/"

  predicate IsRemote(b: Branch) {
    StartsWith(b.name, RemotePrefix)
  }

  /** The search test: the lower-cased name contains the lower-cased query. */
  function MatchesQuery(query: string): Branch -> bool {
    (b: Branch) => Contains(Lower(b.name), Lower(query))
  }

  function LocalMatch(query: string): Branch -> bool {
    (b: Branch) => !IsRemote(b) && Contains(Lower(b.name), Lower(query))
  }

  function RemoteMatch(query: string): Branch -> bool {
    (b: Branch) => IsRemote(b) && Contains(Lower(b.name), Lower(query))
  }

  function NotRemote(): Branch -> bool {
    (b: Branch) => !IsRemote(b)
  }

  function Remote(): Branch -> bool {
    (b: Branch) => IsRemote(b)
  }

  /** `localBranches`: exactly the matching branches outside `remotes/`. */
  function LocalBranches(branches: seq<Branch>, query: string): (r: seq<Branch>)
    ensures forall b :: b in r <==> b in branches && !IsRemote(b) && Contains(Lower(b.name), Lower(query))
  {
    FilterMembers(branches, LocalMatch(query));
    Filter(branches, LocalMatch(query))
  }

  /** `remoteBranches`: exactly the matching branches under `remotes/`. */
  function RemoteBranches(branches: seq<Branch>, query: string): (r: seq<Branch>)
    ensures forall b :: b in r <==> b in branches && IsRemote(b) && Contains(Lower(b.name), Lower(query))
  {
    FilterMembers(branches, RemoteMatch(query));
    Filter(branches, RemoteMatch(query))
  }

  /** Both lists keep the order in which git listed the branches. */
  lemma ListsKeepOrder(branches: seq<Branch>, query: string)
    ensures IsSubsequence(LocalBranches(branches, query), branches)
    ensures IsSubsequence(RemoteBranches(branches, query), branches)
  {
    FilterIsSubsequence(branches, LocalMatch(query));
    FilterIsSubsequence(branches, RemoteMatch(query));
  }

  /** No branch is listed both as local and as remote. */
  lemma ListsDisjoint(branches: seq<Branch>, query: string)
    ensures forall b :: !(b in LocalBranches(branches, query) && b in RemoteBranches(branches, query))
  {
  }

  /**
   * Between them the two lists hold every branch that matches the query
   * exactly once (counting repeats), so with an empty query every branch
   * appears in exactly one list.
   */
  lemma {:induction false} ListsPartitionMatches(branches: seq<Branch>, query: string)
    ensures multiset(LocalBranches(branches, query)) + multiset(RemoteBranches(branches, query))
            == multiset(Filter(branches, MatchesQuery(query)))
  {
    var matches := Filter(branches, MatchesQuery(query));
    FilterFilter(branches, MatchesQuery(query), NotRemote(), LocalMatch(query));
    FilterFilter(branches, MatchesQuery(query), Remote(), RemoteMatch(query));
    FilterPartition(matches, NotRemote(), Remote());
  }

  /** The empty query matches every branch. */
  lemma {:induction false} EmptyQueryMatchesAll(branches: seq<Branch>)
    ensures Filter(branches, MatchesQuery("")) == branches
  {
    forall i | 0 <= i < |branches|
      ensures MatchesQuery("")(branches[i])
    {
      ContainsEmpty(Lower(branches[i].name));
    }
    FilterAll(branches, MatchesQuery(""));
  }

  /** Every name contains the empty query, so an empty search splits all the branches. */
  lemma {:induction false} EmptyQueryPartitionsAll(branches: seq<Branch>)
    ensures multiset(LocalBranches(branches, "")) + multiset(RemoteBranches(branches, "")) == multiset(branches)
    ensures |LocalBranches(branches, "")| + |RemoteBranches(branches, "")| == |branches|
  {
    ListsPartitionMatches(branches, "");
    EmptyQueryMatchesAll(branches);
    var l, r := LocalBranches(branches, ""), RemoteBranches(branches, "");
    assert |multiset(l) + multiset(r)| == |multiset(branches)|;
  }

  /** `handleValueChange`: the branch to check out, if any; a missing or empty value checks nothing out. */
  function HandleValueChange(value: Option<string>): (checkout: Option<string>)
    ensures checkout.Some? <==> value.Some? && value.value != ""
    ensures checkout.Some? ==> checkout.value == value.value
  {
    match value
    case Some(v) => if v != "" then Some(v) else None
    case None => None
  }

  /** The text shown for a remote branch: the first `remotes/` in its name replaced by nothing. */
  function RemoteLabel(name: string): string {
    ReplaceFirst(name, RemotePrefix, "")
  }

  /** A remote branch is shown as its name without the leading `remotes/`. */
  lemma RemoteLabelDropsPrefix(b: Branch)
    requires IsRemote(b)
    ensures RemotePrefix + RemoteLabel(b.name) == b.name
    ensures |RemoteLabel(b.name)| == |b.name| - |RemotePrefix|
  {
    assert RemoteLabel(b.name) == b.name[|RemotePrefix|..];
  }
}

=== FILE: git_ipc.dfy ===
/**
 * The git IPC layer of the main process: the set of authorized workdirs,
 * the cache of one `GitService` per resolved workdir, the workdir gate that
 * every git request passes through, the `GIT_INIT` cache invalidation, and
 * the text assembly and response classification of commit-message
 * generation.
 *
 * The filesystem and `path.resolve` are an oracle (`FileSystem`) handed to
 * each operation: the state of the disk at the moment of the request.
 */
module GitIpc {
  import opened Text

  /** What a request can observe of the disk. */
  datatype FileSystem = FileSystem(
    resolve: string -> string,  // path.resolve: canonical absolute path
    directories: set<string>,   // paths that exist and are directories
    gitMarked: set<string>)     // paths `p` for which `p/.git` exists (file or directory)

  datatype WorkdirError = NotADirectory | NotARepository

  function ErrorMessage(e: WorkdirError): string {
    match e
    case NotADirectory => "Invalid workdir: path does not exist or is not a directory"
    case NotARepository => "Invalid workdir: not a git repository"
  }

  /**
   * The workdir gate. An authorized resolved path passes without looking at
   * the disk; any other path must be an existing directory holding `.git`.
   */
  function ValidateWorkdir(fs: FileSystem, authorized: set<string>, workdir: string): (r: Result<string, WorkdirError>)
    ensures r.Ok? <==> fs.resolve(workdir) in authorized
                       || (fs.resolve(workdir) in fs.directories && fs.resolve(workdir) in fs.gitMarked)
    ensures r.Ok? ==> r.value == fs.resolve(workdir)
    ensures r == Err(NotADirectory) <==> fs.resolve(workdir) !in authorized && fs.resolve(workdir) !in fs.directories
    ensures r == Err(NotARepository) <==> fs.resolve(workdir) !in authorized && fs.resolve(workdir) in fs.directories
                                          && fs.resolve(workdir) !in fs.gitMarked
  {
    var resolved := fs.resolve(workdir);
    if resolved !in authorized then
      if resolved !in fs.directories then Err(NotADirectory)
      else if resolved !in fs.gitMarked then Err(NotARepository)
      else Ok(resolved)
    else Ok(resolved)
  }

  /** An authorized path's verdict does not depend on the disk at all. */
  lemma AuthorizedIgnoresDisk(fs1: FileSystem, fs2: FileSystem, authorized: set<string>, workdir: string)
    requires fs1.resolve == fs2.resolve && fs1.resolve(workdir) in authorized
    ensures ValidateWorkdir(fs1, authorized, workdir) == ValidateWorkdir(fs2, authorized, workdir)
  {
  }

  /** Validating an already resolved path again gives the same verdict when `resolve` is idempotent there. */
  lemma ValidateResolvedAgain(fs: FileSystem, authorized: set<string>, workdir: string)
    requires fs.resolve(fs.resolve(workdir)) == fs.resolve(workdir)
    requires ValidateWorkdir(fs, authorized, workdir).Ok?
    ensures ValidateWorkdir(fs, authorized, fs.resolve(workdir)) == ValidateWorkdir(fs, authorized, workdir)
  {
  }

  /** The git command context of one workdir; its git operations are not part of this model. */
  class GitService {
    const workdir: string

    constructor (workdir: string)
      ensures this.workdir == workdir
    {
      this.workdir := workdir;
    }
  }

  datatype InitError = InitRejected(reason: WorkdirError) | InitFailed(message: string)

  /** The module-level `authorizedWorkdirs` set and `gitServices` map. */
  class GitRegistry {
    var authorized: set<string>
    var services: map<string, GitService>

    /** Every cached service is bound to the key it is cached under. */
    ghost predicate Valid()
      reads this
    {
      forall k :: k in services ==> services[k].workdir == k
    }

    constructor ()
      ensures Valid() && authorized == {} && services == map[]
    {
      authorized := {};
      services := map[];
    }

    /** `registerAuthorizedWorkdir`: adding a key already present changes nothing. */
    method Register(fs: FileSystem, workdir: string)
      requires Valid()
      modifies this`authorized
      ensures Valid()
      ensures authorized == old(authorized) + {fs.resolve(workdir)}
      ensures fs.resolve(workdir) in old(authorized) ==> authorized == old(authorized)
    {
      authorized := authorized + {fs.resolve(workdir)};
    }

    /** `unregisterAuthorizedWorkdir`: drops the key from both collections, and nothing else. */
    method Unregister(fs: FileSystem, workdir: string)
      requires Valid()
      modifies this
      ensures Valid()
      ensures authorized == old(authorized) - {fs.resolve(workdir)}
      ensures services == old(services) - {fs.resolve(workdir)}
      ensures fs.resolve(workdir) !in old(authorized) && fs.resolve(workdir) !in old(services)
              ==> authorized == old(authorized) && services == old(services)
    {
      var resolved := fs.resolve(workdir);
      authorized := authorized - {resolved};
      services := services - {resolved};
    }

    /** `clearAllGitServices` */
    method ClearAll()
      modifies this
      ensures Valid()
      ensures authorized == {} && services == map[]
    {
      services := map[];
      authorized := {};
    }

    /**
     * `getGitService`: validate, then reuse the cached service or create and
     * cache a new one. An existing entry is never replaced, and a rejected
     * path leaves the cache alone.
     */
    method GetGitService(fs: FileSystem, workdir: string) returns (r: Result<GitService, WorkdirError>)
      requires Valid()
      modifies this`services
      ensures Valid()
      ensures ValidateWorkdir(fs, authorized, workdir).Err? ==>
                r == Err(ValidateWorkdir(fs, authorized, workdir).error) && services == old(services)
      ensures ValidateWorkdir(fs, authorized, workdir).Ok? ==>
                r.Ok? && r.value.workdir == fs.resolve(workdir)
                && fs.resolve(workdir) in services && services[fs.resolve(workdir)] == r.value
      ensures fs.resolve(workdir) in old(services) && r.Ok? ==>
                r.value == old(services)[fs.resolve(workdir)] && services == old(services)
      ensures fs.resolve(workdir) !in old(services) && r.Ok? ==>
                fresh(r.value) && services == old(services)[fs.resolve(workdir) := r.value]
    {
      var v := ValidateWorkdir(fs, authorized, workdir);
      if v.Err? {
        return Err(v.error);
      }
      var resolved := v.value;
      if resolved !in services {
        var git := new GitService(resolved);
        services := services[resolved := git];
      }
      r := Ok(services[resolved]);
    }

    /**
     * The `GIT_INIT` handler: validate, fetch (or create) the service, run
     * `init`, and on success drop the cache entry so the next request gets a
     * fresh service. `initError` is what `init` throws, if anything; when it
     * throws the deletion is not reached. The handler re-resolves the
     * resolved path, which relies on `path.resolve` being idempotent.
     */
    method Init(fs: FileSystem, workdir: string, initError: Option<string>) returns (r: Result<(), InitError>)
      requires Valid()
      requires fs.resolve(fs.resolve(workdir)) == fs.resolve(workdir)
      modifies this`services
      ensures Valid()
      ensures ValidateWorkdir(fs, authorized, workdir).Err? ==>
                r == Err(InitRejected(ValidateWorkdir(fs, authorized, workdir).error)) && services == old(services)
      ensures ValidateWorkdir(fs, authorized, workdir).Ok? && initError.None? ==>
                r == Ok(()) && services == old(services) - {fs.resolve(workdir)}
      ensures ValidateWorkdir(fs, authorized, workdir).Ok? && initError.Some? ==>
                r == Err(InitFailed(initError.value)) && fs.resolve(workdir) in services
                && (forall k :: k in old(services) ==> k in services && services[k] == old(services)[k])
                && services.Keys == old(services).Keys + {fs.resolve(workdir)}
    {
      var v := ValidateWorkdir(fs, authorized, workdir);
      if v.Err? {
        return Err(InitRejected(v.error));
      }
      var resolved := v.value;
      ValidateResolvedAgain(fs, authorized, workdir);
      var git := GetGitService(fs, resolved);
      if initError.Some? {
        return Err(InitFailed(initError.value));
      }
      services := services - {resolved};
      r := Ok(());
    }
  }

  /** Two requests whose paths resolve to the same key are served by the same `GitService`. */
  method SameKeySameService(reg: GitRegistry, fs: FileSystem, a: string, b: string)
    returns (first: Result<GitService, WorkdirError>, second: Result<GitService, WorkdirError>)
    requires reg.Valid() && fs.resolve(a) == fs.resolve(b)
    modifies reg`services
    ensures reg.Valid()
    ensures first.Ok? <==> second.Ok?
    ensures first.Ok? ==> first.value == second.value
  {
    first := reg.GetGitService(fs, a);
    second := reg.GetGitService(fs, b);
  }

  // -----------------------------------------------------------------------
  // Commit-message generation: prompt text
  // -----------------------------------------------------------------------

  /** `parts.filter(Boolean).join('\n')`: the non-empty parts, newline-separated. */
  function JoinNonEmpty(parts: seq<string>): string {
    Join(Filter(parts, (s: string) => s != ""), "\n")
  }

  /** The diff summary of the staged and unstaged stats: whichever are non-empty, staged first. */
  lemma {:induction false} JoinNonEmptyPair(staged: string, unstaged: string)
    ensures JoinNonEmpty([staged, unstaged]) ==
              if staged == "" then unstaged
              else if unstaged == "" then staged
              else staged + "\n" + unstaged
  {
    var p := (s: string) => s != "";
    assert [staged, unstaged][1..] == [unstaged];
    assert [unstaged][1..] == [];
    var tail := if unstaged != "" then [unstaged] else [];
    assert Filter([unstaged], p) == tail + Filter([], p) == tail;
    var kept := (if staged != "" then [staged] else []) + tail;
    assert Filter([staged, unstaged], p) == kept;
    if staged != "" && unstaged != "" {
      assert kept == [staged, unstaged];
      assert Join(kept, "\n") == staged + "\n" + Join([unstaged], "\n");
    }
  }

  /** How many lines `lines.slice(0, end)` keeps; JavaScript counts a negative `end` from the back. */
  function SliceEnd(len: nat, end: int): (n: nat)
    ensures n <= len
    ensures 0 <= end <= len ==> n == end
    ensures end < 0 ==> n == if len + end < 0 then 0 else len + end
    ensures end > len ==> n == len
  {
    if end < 0 then (if len + end < 0 then 0 else len + end)
    else if end > len then len
    else end
  }

  const NoChanges: string := "(no changes detected)"

  /** `diffContent.split('\n').slice(0, maxDiffLines).join('\n') || '(no changes detected)'` */
  function TruncateDiff(content: string, maxDiffLines: int): string {
    var lines := Split(content, '\n');
    var kept := Join(lines[..SliceEnd(|lines|, maxDiffLines)], "\n");
    if kept == "" then NoChanges else kept
  }

  /** Splitting a join of separator-free parts gives the parts back. */
  lemma {:induction false} SplitJoin(parts: seq<string>, c: char)
    requires |parts| >= 1
    requires forall i :: 0 <= i < |parts| ==> c !in parts[i]
    ensures Split(Join(parts, [c]), c) == parts
    decreases |parts|, |parts[0]|
  {
    if parts[0] == [] {
      if |parts| > 1 {
        var rest := Join(parts[1..], [c]);
        SplitJoin(parts[1..], c);
        assert Join(parts, [c]) == [c] + rest;
        SplitAtSeparator(c, rest);
        assert parts == [""] + parts[1..];
      }
    } else {
      var x := parts[0][0];
      var shorter := [parts[0][1..]] + parts[1..];
      SplitJoin(shorter, c);
      assert shorter[1..] == parts[1..];
      JoinFirstChar(parts, c);
      assert x in parts[0];
      SplitAtOther(x, Join(shorter, [c]), c);
      assert shorter[0] == parts[0][1..] && [x] + parts[0][1..] == parts[0];
      assert [[x] + shorter[0]] + shorter[1..] == parts;
    }
  }

  /** Joining starts with the first part's first character, followed by the join with it removed. */
  lemma JoinFirstChar(parts: seq<string>, c: char)
    requires |parts| >= 1 && parts[0] != []
    ensures Join(parts, [c]) == [parts[0][0]] + Join([parts[0][1..]] + parts[1..], [c])
  {
    var head, tail := parts[0][0], parts[0][1..];
    var shorter := [tail] + parts[1..];
    assert parts[0] == [head] + tail;
    assert shorter[0] == tail && shorter[1..] == parts[1..];
    if |parts| > 1 {
      var rest := Join(parts[1..], [c]);
      assert Join(parts, [c]) == parts[0] + [c] + rest;
      assert Join(shorter, [c]) == tail + [c] + rest;
    }
  }

  lemma SplitAtSeparator(c: char, s: string)
    ensures Split([c] + s, c) == [""] + Split(s, c)
  {
    assert ([c] + s)[1..] == s;
  }

  lemma SplitAtOther(x: char, s: string, c: char)
    requires x != c
    ensures Split([x] + s, c) == [[x] + Split(s, c)[0]] + Split(s, c)[1..]
  {
    assert ([x] + s)[1..] == s;
  }

  /**
   * The diff body is either the placeholder, or a non-empty prefix of the
   * diff content made of exactly its first lines, as many as `slice` keeps.
   */
  lemma TruncateDiffLines(content: string, maxDiffLines: int)
    ensures var lines := Split(content, '\n');
            var r := TruncateDiff(content, maxDiffLines);
            r == NoChanges
            || (r != "" && StartsWith(content, r) && Split(r, '\n') == lines[..SliceEnd(|lines|, maxDiffLines)])
  {
    var lines := Split(content, '\n');
    var k := SliceEnd(|lines|, maxDiffLines);
    var kept := Join(lines[..k], "\n");
    if kept != "" {
      JoinTakePrefix(lines, "\n", k);
      JoinSplit(content, '\n');
      assert "\n" == ['\n'];
      if k > 0 {
        SplitJoin(lines[..k], '\n');
      }
    }
  }

  /** When `slice` keeps every line, the whole diff content is used, or the placeholder if it is empty. */
  lemma TruncateDiffKeepsAll(content: string, maxDiffLines: int)
    requires maxDiffLines >= |Split(content, '\n')|
    ensures TruncateDiff(content, maxDiffLines) == if content == "" then NoChanges else content
  {
    var lines := Split(content, '\n');
    assert lines[..SliceEnd(|lines|, maxDiffLines)] == lines;
    JoinSplit(content, '\n');
    assert "\n" == ['\n'];
  }

  /** The three variable sections of the prompt: style examples, change summary, change details. */
  datatype PromptSections = PromptSections(style: string, summary: string, details: string)

  function OrElse(s: string, fallback: string): string {
    if s != "" then s else fallback
  }

  /**
   * The prompt's sections from the trimmed outputs of the five git commands
   * (a command that fails contributes ""). No section is ever empty.
   */
  function CommitPrompt(recentCommits: string, stagedStat: string, unstagedStat: string,
                        stagedDiff: string, unstagedDiff: string, maxDiffLines: int): (p: PromptSections)
    ensures p.style != "" && p.summary != "" && p.details != ""
    ensures recentCommits != "" ==> p.style == recentCommits
    ensures recentCommits == "" ==> p.style == "(no recent commits)"
    ensures stagedStat == "" && unstagedStat == "" ==> p.summary == "(no stats)"
    ensures stagedStat != "" || unstagedStat != "" ==>
              p.summary == (if stagedStat == "" then unstagedStat
                            else if unstagedStat == "" then stagedStat
                            else stagedStat + "\n" + unstagedStat)
    ensures p.details == TruncateDiff(if stagedDiff == "" then unstagedDiff
                                      else if unstagedDiff == "" then stagedDiff
                                      else stagedDiff + "\n" + unstagedDiff, maxDiffLines)
  {
    JoinNonEmptyPair(stagedStat, unstagedStat);
    JoinNonEmptyPair(stagedDiff, unstagedDiff);
    PromptSections(
      OrElse(recentCommits, "(no recent commits)"),
      OrElse(JoinNonEmpty([stagedStat, unstagedStat]), "(no stats)"),
      TruncateDiff(JoinNonEmpty([stagedDiff, unstagedDiff]), maxDiffLines))
  }

  // -----------------------------------------------------------------------
  // Commit-message generation: settling the CLI run
  // -----------------------------------------------------------------------

  /** The fields of the CLI's JSON answer the handler reads; a field of another type counts as absent. */
  datatype CliResponse = CliResponse(kind: Option<string>, subtype: Option<string>,
                                     result: Option<string>, error: Option<string>)

  /** What ends the run first: the child closes, fails to start, or the timer fires. */
  datatype ProcEvent =
    | Closed(code: Option<int>, parsed: Option<CliResponse>, stderr: string)  // parsed: None when JSON.parse throws
    | ProcessError(message: string)
    | TimerFired

  datatype GenerateResult = Generated(message: string) | GenerateFailed(error: string)

  /** The outcome of the run and whether the child was sent SIGTERM. */
  datatype Settlement = Settlement(result: GenerateResult, sigterm: bool)

  /** JavaScript truthiness of an optional string. */
  predicate Truthy(s: Option<string>) {
    s.Some? && s.value != ""
  }

  /** `${code}` of a close code; a child killed by a signal closes with code `null`. */
  function CodeText(code: Option<int>): string {
    if code.Some? then IntToString(code.value) else "null"
  }

  predicate IsSuccessResponse(resp: CliResponse) {
    resp.kind == Some("result") && resp.subtype == Some("success") && Truthy(resp.result)
  }

  /** The `close` handler's verdict. */
  function ClassifyClose(code: Option<int>, parsed: Option<CliResponse>, stderr: string): (r: GenerateResult)
    ensures r.Generated? <==> code == Some(0) && parsed.Some? && IsSuccessResponse(parsed.value)
    ensures r.Generated? ==> r.message == parsed.value.result.value && r.message != ""
    ensures code != Some(0) ==> r == GenerateFailed(if stderr != "" then stderr else "Exit code: " + CodeText(code))
    ensures code == Some(0) && parsed.None? ==> r == GenerateFailed("Failed to parse response")
    ensures code == Some(0) && parsed.Some? && !IsSuccessResponse(parsed.value) ==>
              r == GenerateFailed(if Truthy(parsed.value.error) then parsed.value.error.value else "Unknown error")
  {
    if code != Some(0) then
      GenerateFailed(if stderr != "" then stderr else "Exit code: " + CodeText(code))
    else if parsed.None? then
      GenerateFailed("Failed to parse response")
    else if IsSuccessResponse(parsed.value) then
      Generated(parsed.value.result.value)
    else
      GenerateFailed(if Truthy(parsed.value.error) then parsed.value.error.value else "Unknown error")
  }

  /**
   * The promise settles on the first of the events; `close` and `error`
   * clear the timer, and later events find the promise already settled.
   */
  function Settle(events: seq<ProcEvent>): (s: Option<Settlement>)
    ensures s.None? <==> events == []
    ensures s.Some? ==> (s.value.sigterm <==> events[0] == TimerFired)
    ensures s.Some? && events[0] == TimerFired ==> s.value.result == GenerateFailed("timeout")
    ensures s.Some? && events[0].ProcessError? ==> s.value.result == GenerateFailed(events[0].message)
    ensures s.Some? && events[0].Closed? ==>
              s.value.result == ClassifyClose(events[0].code, events[0].parsed, events[0].stderr)
  {
    if events == [] then None
    else match events[0]
      case TimerFired => Some(Settlement(GenerateFailed("timeout"), true))
      case ProcessError(message) => Some(Settlement(GenerateFailed(message), false))
      case Closed(code, parsed, stderr) => Some(Settlement(ClassifyClose(code, parsed, stderr), false))
  }
}

=== FILE: hapi_server.dfy ===
/**
 * The singleton manager of the auxiliary remote-access server process.
 *
 * The manager's fields are updated by its own methods and by callbacks the
 * spawned child triggers later. Those callbacks are explicit events here:
 * `OnChildError`, `OnChildExit` and `OnKillTimeout` (the 5000 ms timer armed
 * by `Stop`). What the operating system does (spawning, delivering signals)
 * is an input: `SpawnOutcome` says how a spawn went, and the manager records
 * the signals it sends, the environments it spawns with, and every
 * `statusChanged` event it emits, in order.
 */
module HapiServer {
  import opened Text

  datatype HapiConfig = HapiConfig(
    webappPort: int,
    cliApiToken: string,
    telegramBotToken: string,
    webappUrl: string,
    allowedChatIds: string)

  datatype HapiStatus = HapiStatus(running: bool, pid: Option<int>, port: Option<int>, error: Option<string>)

  /** `{ running: false }` */
  const Stopped: HapiStatus := HapiStatus(false, None, None, None)

  /** A spawned child: `id` numbers the spawn attempts, `pid` is `undefined` when the OS gave none. */
  datatype Child = Child(id: nat, pid: Option<int>)

  datatype Signal = SIGTERM | SIGKILL

  datatype Kill = Kill(child: nat, signal: Signal)

  /** How `spawn` behaved: it returned a child, or it threw with a message. */
  datatype SpawnOutcome = Spawned(pid: Option<int>) | SpawnThrew(message: string)

  // -----------------------------------------------------------------------
  // The child's environment
  // -----------------------------------------------------------------------

  const ManagedKeys: set<string> := {"WEBAPP_PORT", "CLI_API_TOKEN", "TELEGRAM_BOT_TOKEN", "WEBAPP_URL", "ALLOWED_CHAT_IDS"}

  function SetIfNonEmpty(env: map<string, string>, key: string, value: string): map<string, string> {
    if value != "" then env[key := value] else env
  }

  /**
   * Entry `key` of the child's environment: the config value when it is
   * non-empty, otherwise exactly what the ambient environment has.
   */
  ghost predicate OptionalEntry(env: map<string, string>, ambient: map<string, string>, key: string, value: string) {
    if value != "" then key in env && env[key] == value
    else (key in env <==> key in ambient) && (key in ambient ==> env[key] == ambient[key])
  }

  /** The ambient environment overlaid with the port and the non-empty config strings. */
  function ChildEnv(ambient: map<string, string>, config: HapiConfig): (env: map<string, string>)
    ensures "WEBAPP_PORT" in env && env["WEBAPP_PORT"] == IntToString(config.webappPort)
    ensures OptionalEntry(env, ambient, "CLI_API_TOKEN", config.cliApiToken)
    ensures OptionalEntry(env, ambient, "TELEGRAM_BOT_TOKEN", config.telegramBotToken)
    ensures OptionalEntry(env, ambient, "WEBAPP_URL", config.webappUrl)
    ensures OptionalEntry(env, ambient, "ALLOWED_CHAT_IDS", config.allowedChatIds)
    ensures forall k :: k !in ManagedKeys ==> (k in env <==> k in ambient) && (k in ambient ==> env[k] == ambient[k])
  {
    var withPort := ambient["WEBAPP_PORT" := IntToString(config.webappPort)];
    var withToken := SetIfNonEmpty(withPort, "CLI_API_TOKEN", config.cliApiToken);
    var withBot := SetIfNonEmpty(withToken, "TELEGRAM_BOT_TOKEN", config.telegramBotToken);
    var withUrl := SetIfNonEmpty(withBot, "WEBAPP_URL", config.webappUrl);
    SetIfNonEmpty(withUrl, "ALLOWED_CHAT_IDS", config.allowedChatIds)
  }

  /** `generateToken`: 32 random bytes (an input here) as 64 lower-case hex characters. */
  function GenerateToken(bytes: seq<byte>): (token: string)
    requires |bytes| == 32
    ensures |token| == 64
    ensures forall k :: 0 <= k < |token| ==> IsHexChar(token[k])
    ensures HexDecode(token) == Some(bytes)
  {
    HexEncodeAlphabet(bytes);
    HexRoundTrip(bytes);
    HexEncode(bytes)
  }

  // -----------------------------------------------------------------------
  // Bookkeeping of pending `stop` calls
  // -----------------------------------------------------------------------

  /** How many entries of `ws` are `c`. */
  function CountOf(ws: seq<nat>, c: nat): nat {
    if ws == [] then 0 else CountOf(ws[..|ws| - 1], c) + (if ws[|ws| - 1] == c then 1 else 0)
  }

  /** `ws` without the entries equal to `c`, in order. */
  function Without(ws: seq<nat>, c: nat): (r: seq<nat>)
    ensures c !in r
    ensures forall x :: x in r ==> x in ws
  {
    if ws == [] then [] else Without(ws[..|ws| - 1], c) + (if ws[|ws| - 1] == c then [] else [ws[|ws| - 1]])
  }

  function Repeat(s: HapiStatus, n: nat): (r: seq<HapiStatus>)
    ensures |r| == n && forall i :: 0 <= i < n ==> r[i] == s
  {
    seq(n, _ => s)
  }

  class HapiServerManager {
    var process: Option<Child>
    var config: Option<HapiConfig>
    var status: HapiStatus
    /** Every `statusChanged` emission, in order. */
    var emitted: seq<HapiStatus>
    /** Every `kill` sent to a child, in order. */
    var kills: seq<Kill>
    /** The environment of every spawn attempt; attempt `i` creates child `i`. */
    var spawnEnvs: seq<map<string, string>>
    /** Children with a pending `stop`: its `once('exit')` listener and its SIGKILL timer, in call order. */
    var stopWaiters: seq<nat>

    /** A live handle means the status says running, for that child's pid and the stored config's port. */
    ghost predicate HandleImpliesRunning()
      reads this
    {
      process.Some? ==>
        status.running && status.pid == process.value.pid
        && config.Some? && status.port == Some(config.value.webappPort)
    }

    ghost predicate Valid()
      reads this
    {
      && HandleImpliesRunning()
      && (process.Some? ==> process.value.id < |spawnEnvs|)
      && (forall i :: 0 <= i < |stopWaiters| ==> stopWaiters[i] < |spawnEnvs|)
    }

    constructor ()
      ensures Valid()
      ensures process == None && config == None && status == Stopped
      ensures emitted == [] && kills == [] && spawnEnvs == [] && stopWaiters == []
    {
      process := None;
      config := None;
      status := Stopped;
      emitted := [];
      kills := [];
      spawnEnvs := [];
      stopWaiters := [];
    }

    /**
     * `start`. With a live handle it returns the current status and does
     * nothing else. Otherwise it stores the config, spawns with `ChildEnv`,
     * and emits the new status once, whether the spawn worked or threw.
     */
    method Start(cfg: HapiConfig, ambient: map<string, string>, outcome: SpawnOutcome) returns (s: HapiStatus)
      requires Valid()
      modifies this
      ensures Valid()
      ensures s == status
      ensures kills == old(kills) && stopWaiters == old(stopWaiters)
      ensures old(process).Some? ==>
                s == old(status) && process == old(process) && config == old(config)
                && emitted == old(emitted) && spawnEnvs == old(spawnEnvs)
      ensures old(process).None? ==>
                config == Some(cfg) && spawnEnvs == old(spawnEnvs) + [ChildEnv(ambient, cfg)]
                && emitted == old(emitted) + [s]
      ensures old(process).None? && outcome.Spawned? ==>
                s == HapiStatus(true, outcome.pid, Some(cfg.webappPort), None)
                && process == Some(Child(|old(spawnEnvs)|, outcome.pid))
      ensures old(process).None? && outcome.SpawnThrew? ==>
                s == HapiStatus(false, None, None, Some(outcome.message)) && process == None
    {
      if process.Some? {
        return status;
      }
      config := Some(cfg);
      var env := ChildEnv(ambient, cfg);
      var id := |spawnEnvs|;
      spawnEnvs := spawnEnvs + [env];
      match outcome {
        case Spawned(pid) =>
          process := Some(Child(id, pid));
          status := HapiStatus(true, pid, Some(cfg.webappPort), None);
        case SpawnThrew(message) =>
          status := HapiStatus(false, None, None, Some(message));
      }
      emitted := emitted + [status];
      s := status;
    }

    /**
     * `stop`. Without a handle it settles at once with the current status.
     * Otherwise it arms the SIGKILL timer, registers a one-shot exit
     * listener and sends SIGTERM; it settles only in `OnChildExit`.
     */
    method Stop() returns (settled: Option<HapiStatus>)
      requires Valid()
      modifies this`stopWaiters, this`kills
      ensures Valid()
      ensures old(process).None? ==> settled == Some(status) && kills == old(kills) && stopWaiters == old(stopWaiters)
      ensures old(process).Some? ==>
                settled == None
                && kills == old(kills) + [Kill(process.value.id, SIGTERM)]
                && stopWaiters == old(stopWaiters) + [process.value.id]
    {
      if process.None? {
        return Some(status);
      }
      var child := process.value;
      stopWaiters := stopWaiters + [child.id];
      kills := kills + [Kill(child.id, SIGTERM)];
      settled := None;
    }

    /** The child's `error` callback: not running, with the error, handle cleared, one emission. */
    method OnChildError(message: string)
      requires Valid()
      modifies this`status, this`process, this`emitted
      ensures Valid()
      ensures status == HapiStatus(false, None, None, Some(message)) && process == None
      ensures emitted == old(emitted) + [status]
    {
      status := HapiStatus(false, None, None, Some(message));
      process := None;
      emitted := emitted + [status];
    }

    /** A pending stop's 5000 ms timer fires: SIGKILL, unless the child already exited (timer cleared). */
    method OnKillTimeout(child: nat)
      requires Valid()
      modifies this`kills
      ensures Valid()
      ensures kills == old(kills) + (if child in stopWaiters then [Kill(child, SIGKILL)] else [])
    {
      if child in stopWaiters {
        kills := kills + [Kill(child, SIGKILL)];
      }
    }

    /**
     * Child `child` exits. The `exit` callback registered by `start` runs
     * first (not running, handle cleared, one emission); then every pending
     * `stop` on that child, in order, clears its timer, sets the same status,
     * emits, and settles with `{ running: false }`.
     */
    method OnChildExit(child: nat) returns (settled: seq<HapiStatus>)
      requires Valid()
      modifies this`status, this`process, this`emitted, this`stopWaiters
      ensures Valid()
      ensures process == None && status == Stopped
      ensures settled == Repeat(Stopped, CountOf(old(stopWaiters), child))
      ensures emitted == old(emitted) + [Stopped] + settled
      ensures stopWaiters == Without(old(stopWaiters), child)
    {
      // The exit callback registered by `start`.
      status := Stopped;
      process := None;
      emitted := emitted + [status];
      // The one-shot listeners of pending stops on this child, in order.
      var waiters := stopWaiters;
      var remaining: seq<nat> := [];
      settled := [];
      var i := 0;
      while i < |waiters|
        invariant 0 <= i <= |waiters|
        invariant remaining == Without(waiters[..i], child)
        invariant settled == Repeat(Stopped, CountOf(waiters[..i], child))
      {
        var prefix := waiters[..i + 1];
        assert prefix[..i] == waiters[..i] && prefix[i] == waiters[i];
        if waiters[i] == child {
          settled := settled + [Stopped];
        } else {
          remaining := remaining + [waiters[i]];
        }
        i := i + 1;
      }
      assert waiters[..i] == waiters;
      forall j | 0 <= j < |remaining|
        ensures remaining[j] < |spawnEnvs|
      {
        assert remaining[j] in waiters;
      }
      emitted := emitted + settled;
      stopWaiters := remaining;
    }

    /**
     * `restart`: `stop`, then, if stop had to wait, the child's exit
     * (after the SIGKILL timer when `killTimerFires`), then `start`.
     */
    method Restart(cfg: HapiConfig, ambient: map<string, string>, outcome: SpawnOutcome, killTimerFires: bool)
      returns (s: HapiStatus)
      requires Valid()
      modifies this
      ensures Valid()
      ensures s == status && config == Some(cfg)
      ensures spawnEnvs == old(spawnEnvs) + [ChildEnv(ambient, cfg)]
      ensures process.Some? <==> outcome.Spawned?
      ensures outcome.Spawned? ==> s == HapiStatus(true, outcome.pid, Some(cfg.webappPort), None)
      ensures outcome.SpawnThrew? ==> s == HapiStatus(false, None, None, Some(outcome.message))
      ensures old(process).None? ==> emitted == old(emitted) + [s] && kills == old(kills)
      ensures old(process).Some? ==>
                var id := old(process).value.id;
                emitted == old(emitted) + [Stopped] + Repeat(Stopped, CountOf(old(stopWaiters), id) + 1) + [s]
                && kills == old(kills) + [Kill(id, SIGTERM)] + (if killTimerFires then [Kill(id, SIGKILL)] else [])
    {
      var before := process;
      var pending := Stop();
      if before.Some? {
        var id := before.value.id;
        assert stopWaiters == old(stopWaiters) + [id];
        if killTimerFires {
          OnKillTimeout(id);
        }
        var settled := OnChildExit(id);
        assert CountOf(old(stopWaiters) + [id], id) == CountOf(old(stopWaiters), id) + 1 by {
          assert (old(stopWaiters) + [id])[..|old(stopWaiters) + [id]| - 1] == old(stopWaiters);
        }
      }
      s := Start(cfg, ambient, outcome);
    }

    /** `getStatus`: a read of the field, nothing changes. */
    method GetStatus() returns (s: HapiStatus)
      ensures s == status
    {
      s := status;
    }

    /** `cleanup`: SIGKILL and drop a live handle; no emission and the status is kept. */
    method Cleanup()
      requires Valid()
      modifies this`process, this`kills
      ensures Valid()
      ensures process == None
      ensures kills == old(kills) + (if old(process).Some? then [Kill(old(process).value.id, SIGKILL)] else [])
    {
      if process.Some? {
        kills := kills + [Kill(process.value.id, SIGKILL)];
        process := None;
      }
    }
  }

  /** Calling `start` again while the first call's child lives spawns nothing and returns the same status. */
  method StartTwice(m: HapiServerManager, first: HapiConfig, second: HapiConfig, ambient: map<string, string>,
                    o1: SpawnOutcome, o2: SpawnOutcome)
    returns (s1: HapiStatus, s2: HapiStatus)
    requires m.Valid() && m.process.None?
    modifies m
    ensures m.Valid()
    ensures o1.Spawned? ==>
              s2 == s1 && m.config == Some(first)
              && m.spawnEnvs == old(m.spawnEnvs) + [ChildEnv(ambient, first)] && m.emitted == old(m.emitted) + [s1]
  {
    s1 := m.Start(first, ambient, o1);
    s2 := m.Start(second, ambient, o2);
  }
}

=== FILE: hapi_settings.dfy ===
/**
 * The remote-sharing settings page: the form's local fields, the config it
 * hands to the server manager, the port fallback and token generation.
 *
 * The page's React state is a `Form` value and the persisted settings a
 * `Settings` value; each handler is a function from the old values to the
 * new ones. `Number(...)` is modelled for blank strings and plain decimal
 * digits; every other spelling is answered by the `other` parameter.
 */
module HapiSettingsPage {
  import opened Text
  import HapiServer

  /** What JavaScript's `Number(s)` gives, for the strings modelled: `NaN` or an integer. */
  datatype NumberValue = NaN | Finite(value: int)

  const DefaultPort: int := 3006

  /** The editable fields of the page. */
  datatype Form = Form(port: string, token: string, telegramToken: string, webappUrl: string, allowedChatIds: string)

  /** The persisted remote-sharing settings. */
  datatype Settings = Settings(
    enabled: bool,
    webappPort: int,
    cliApiToken: string,
    telegramBotToken: string,
    webappUrl: string,
    allowedChatIds: string)

  // -----------------------------------------------------------------------
  // The port
  // -----------------------------------------------------------------------

  /** `Number(s)`: blank text is 0, a run of decimal digits is its value, anything else is up to `other`. */
  function NumberOf(s: string, other: string -> NumberValue): NumberValue {
    var t := Trim(s);
    if t == "" then Finite(0)
    else if forall i :: 0 <= i < |t| ==> IsDigit(t[i]) then Finite(DigitsValue(t))
    else other(s)
  }

  /** `Number(localPort) || 3006`: `NaN` and 0 are falsy and fall back to 3006, every other number is kept. */
  function PortOrDefault(n: NumberValue): (port: int)
    ensures port != 0
    ensures n.Finite? && n.value != 0 ==> port == n.value
    ensures n.NaN? || n.value == 0 ==> port == DefaultPort
  {
    match n
    case NaN => DefaultPort
    case Finite(v) => if v == 0 then DefaultPort else v
  }

  /** A cleared port field saves the default port. */
  lemma BlankPortIsDefault(s: string, other: string -> NumberValue)
    requires Trim(s) == ""
    ensures PortOrDefault(NumberOf(s, other)) == DefaultPort
  {
  }

  lemma {:induction false} TrimDigits(s: string)
    requires forall i :: 0 <= i < |s| ==> IsDigit(s[i])
    ensures Trim(s) == s
  {
    assert s == [] || !IsSpace(s[0]);
    assert TrimStart(s) == s;
    assert s == [] || !IsSpace(s[|s| - 1]);
  }

  /** A positive port written into the field as text (`String(port)`) reads back as the same port. */
  lemma {:induction false} PortTextRoundTrip(p: int, other: string -> NumberValue)
    requires p > 0
    ensures PortOrDefault(NumberOf(IntToString(p), other)) == p
  {
    var text := NatToString(p);
    assert IntToString(p) == text;
    NumberOfDigits(text, other);
    NatToStringValue(p);
  }

  /** A non-empty run of decimal digits is read as its value. */
  lemma NumberOfDigits(t: string, other: string -> NumberValue)
    requires t != [] && forall i :: 0 <= i < |t| ==> IsDigit(t[i])
    ensures NumberOf(t, other) == Finite(DigitsValue(t))
  {
    TrimDigits(t);
  }

  // -----------------------------------------------------------------------
  // Config and settings
  // -----------------------------------------------------------------------

  /** The effect that fills the form from the saved settings. */
  function FormOf(s: Settings): Form {
    Form(IntToString(s.webappPort), s.cliApiToken, s.telegramBotToken, s.webappUrl, s.allowedChatIds)
  }

  /** `getConfig`: the port with its fallback, every other field copied verbatim. */
  function GetConfig(form: Form, other: string -> NumberValue): (c: HapiServer.HapiConfig)
    ensures c.webappPort != 0
    ensures c.webappPort == PortOrDefault(NumberOf(form.port, other))
    ensures c.cliApiToken == form.token && c.telegramBotToken == form.telegramToken
    ensures c.webappUrl == form.webappUrl && c.allowedChatIds == form.allowedChatIds
  {
    HapiServer.HapiConfig(PortOrDefault(NumberOf(form.port, other)), form.token, form.telegramToken, form.webappUrl,
                          form.allowedChatIds)
  }

  /** `saveSettings`: the config merged into the settings; `enabled` is not part of it. */
  function SaveSettings(s: Settings, form: Form, other: string -> NumberValue): (r: Settings)
    ensures r.enabled == s.enabled
    ensures var c := GetConfig(form, other);
      r.webappPort == c.webappPort && r.cliApiToken == c.cliApiToken && r.telegramBotToken == c.telegramBotToken
      && r.webappUrl == c.webappUrl && r.allowedChatIds == c.allowedChatIds
  {
    var c := GetConfig(form, other);
    s.(webappPort := c.webappPort, cliApiToken := c.cliApiToken, telegramBotToken := c.telegramBotToken,
       webappUrl := c.webappUrl, allowedChatIds := c.allowedChatIds)
  }

  /** Saving a form that was only loaded from the settings changes nothing, as long as the saved port is positive. */
  lemma LoadThenSaveKeepsSettings(s: Settings, other: string -> NumberValue)
    requires s.webappPort > 0
    ensures SaveSettings(s, FormOf(s), other) == s
  {
    PortTextRoundTrip(s.webappPort, other);
  }

  /** The port field's blur handler: only `webappPort` is written. */
  function OnPortBlur(s: Settings, form: Form, other: string -> NumberValue): (r: Settings)
    ensures r.webappPort == PortOrDefault(NumberOf(form.port, other))
    ensures r == s.(webappPort := r.webappPort)
  {
    s.(webappPort := PortOrDefault(NumberOf(form.port, other)))
  }

  /** The blur handler and `getConfig` agree on the port. */
  lemma BlurMatchesConfig(s: Settings, form: Form, other: string -> NumberValue)
    ensures OnPortBlur(s, form, other).webappPort == GetConfig(form, other).webappPort
  {
  }

  // -----------------------------------------------------------------------
  // The token
  // -----------------------------------------------------------------------

  /** Each byte as `b.toString(16).padStart(2, '0')`. */
  function ByteHexParts(bytes: seq<byte>): (parts: seq<string>)
    ensures |parts| == |bytes|
    ensures forall i :: 0 <= i < |bytes| ==> parts[i] == ByteHex(bytes[i])
  {
    if bytes == [] then [] else [ByteHex(bytes[0])] + ByteHexParts(bytes[1..])
  }

  /** Joining the per-byte strings with no separator is the hex encoding of the bytes. */
  lemma {:induction false} JoinByteHex(bytes: seq<byte>)
    ensures Join(ByteHexParts(bytes), "") == HexEncode(bytes)
  {
    if |bytes| == 1 {
      assert HexEncode(bytes) == ByteHex(bytes[0]) + HexEncode([]);
    } else if |bytes| > 1 {
      JoinByteHex(bytes[1..]);
      assert ByteHexParts(bytes)[1..] == ByteHexParts(bytes[1..]);
    }
  }

  /**
   * `handleGenerateToken`'s token from 32 random bytes: 64 lower-case hex
   * characters that decode back to the bytes, the same text the server
   * manager's `generateToken` makes from them.
   */
  function TokenOf(bytes: seq<byte>): (token: string)
    requires |bytes| == 32
    ensures |token| == 64
    ensures forall k :: 0 <= k < |token| ==> IsHexChar(token[k])
    ensures forall i :: 0 <= i < 32 ==> token[2 * i] == HexDigit(bytes[i] as nat / 16) && token[2 * i + 1] == HexDigit(bytes[i] as nat % 16)
    ensures HexDecode(token) == Some(bytes)
    ensures token == HapiServer.GenerateToken(bytes)
  {
    JoinByteHex(bytes);
    HexEncodeAlphabet(bytes);
    HexRoundTrip(bytes);
    forall i | 0 <= i < 32
      ensures HexEncode(bytes)[2 * i] == HexDigit(bytes[i] as nat / 16)
      ensures HexEncode(bytes)[2 * i + 1] == HexDigit(bytes[i] as nat % 16)
    {
      HexEncodeAt(bytes, i);
    }
    Join(ByteHexParts(bytes), "")
  }

  datatype PageState = PageState(form: Form, settings: Settings)

  /** `handleGenerateToken`: the same new token goes into the form and into the saved settings; nothing else changes. */
  function HandleGenerateToken(page: PageState, bytes: seq<byte>): (r: PageState)
    requires |bytes| == 32
    ensures r.form.token == r.settings.cliApiToken == TokenOf(bytes)
    ensures r.form == page.form.(token := r.form.token)
    ensures r.settings == page.settings.(cliApiToken := r.settings.cliApiToken)
  {
    var token := TokenOf(bytes);
    PageState(page.form.(token := token), page.settings.(cliApiToken := token))
  }
}

=== FILE: text.dfy ===
/**
 * String and sequence helpers shared by the modules of this model: the
 * JavaScript string operations the source relies on (`includes`,
 * `startsWith`, `endsWith`, `toLowerCase`, `split`, `join`, `replace`,
 * `trim`, `String(n)`, `toString(16).padStart(2, '0')`) and `Array.filter`,
 * each stated once here with the properties the other modules use.
 */
module Text {

  datatype Option<+T> = None | Some(value: T)

  datatype Result<+T, +E> = Ok(value: T) | Err(error: E)

  // ---------------------------------------------------------------------
  // Prefixes, suffixes and substrings
  // ---------------------------------------------------------------------

  /** `s.startsWith(p)` */
  predicate StartsWith(s: string, p: string) {
    |p| <= |s| && s[..|p|] == p
  }

  /** `s.endsWith(p)` */
  predicate EndsWith(s: string, p: string) {
    |p| <= |s| && s[|s| - |p|..] == p
  }

  /** `s.includes(p)`: `p` occurs in `s` as a contiguous block. */
  predicate Contains(s: string, p: string)
    decreases |s|
  {
    StartsWith(s, p) || (|s| > 0 && Contains(s[1..], p))
  }

  /** Every string contains the empty string. */
  lemma ContainsEmpty(s: string)
    ensures Contains(s, "")
  {
  }

  /** What a suffix of `s` contains, `s` contains. */
  lemma {:induction false} ContainsDrop(s: string, n: nat, p: string)
    requires n <= |s| && Contains(s[n..], p)
    ensures Contains(s, p)
  {
    if n > 0 {
      assert s[1..][n - 1..] == s[n..];
      ContainsDrop(s[1..], n - 1, p);
    }
  }

  /** A string containing `a + b` contains `b`. */
  lemma {:induction false} ContainsSuffix(s: string, a: string, b: string)
    requires Contains(s, a + b)
    ensures Contains(s, b)
    decreases |s|
  {
    if StartsWith(s, a + b) {
      assert s[|a|..][..|b|] == (a + b)[|a|..];
      ContainsDrop(s, |a|, b);
    } else {
      ContainsSuffix(s[1..], a, b);
      ContainsDrop(s, 1, b);
    }
  }

  /** `a + b + c` contains `b`. */
  lemma ContainsInfix(a: string, b: string, c: string)
    ensures Contains(a + b + c, b)
  {
    var s := a + b + c;
    assert s[|a|..][..|b|] == b;
    ContainsDrop(s, |a|, b);
  }

  // ---------------------------------------------------------------------
  // Case mapping
  // ---------------------------------------------------------------------

  /** `toLowerCase` restricted to ASCII: 'A'..'Z' become 'a'..'z', every other character stays. */
  function LowerChar(c: char): char {
    if 'A' <= c <= 'Z' then (c as int + 32) as char else c
  }

  function Lower(s: string): (r: string)
    ensures |r| == |s|
    ensures forall i :: 0 <= i < |s| ==> r[i] == LowerChar(s[i])
  {
    if s == [] then [] else [LowerChar(s[0])] + Lower(s[1..])
  }

  // ---------------------------------------------------------------------
  // Character replacement (`s.replace(/c/g, rep)`)
  // ---------------------------------------------------------------------

  /** Every occurrence of `c` in `s` replaced by `rep`. */
  function ReplaceAll(s: string, c: char, rep: string): (r: string)
    ensures c !in rep ==> c !in r
    ensures forall d :: d in r ==> d in s || d in rep
  {
    if s == [] then []
    else (if s[0] == c then rep else [s[0]]) + ReplaceAll(s[1..], c, rep)
  }

  /** Replacing a character by one character keeps the length and changes exactly the occurrences of `c`. */
  lemma {:induction false} ReplaceCharAt(s: string, c: char, d: char)
    ensures |ReplaceAll(s, c, [d])| == |s|
    ensures forall i :: 0 <= i < |s| ==> ReplaceAll(s, c, [d])[i] == (if s[i] == c then d else s[i])
  {
    if s != [] {
      ReplaceCharAt(s[1..], c, d);
    }
  }

  /** `s.replace(p, rep)` with a string pattern: only the first occurrence is replaced. */
  function ReplaceFirst(s: string, p: string, rep: string): (r: string)
    decreases |s|
  {
    if StartsWith(s, p) then rep + s[|p|..]
    else if s == [] then []
    else [s[0]] + ReplaceFirst(s[1..], p, rep)
  }

  // ---------------------------------------------------------------------
  // Split and join on a separator
  // ---------------------------------------------------------------------

  /** `s.split(c)` for a one-character separator; like JavaScript, `""` splits to `[""]`. */
  function Split(s: string, c: char): (r: seq<string>)
    ensures |r| >= 1
    ensures forall i :: 0 <= i < |r| ==> c !in r[i]
  {
    if s == [] then [""]
    else if s[0] == c then [""] + Split(s[1..], c)
    else
      var rest := Split(s[1..], c);
      [[s[0]] + rest[0]] + rest[1..]
  }

  /** `parts.join(sep)` */
  function Join(parts: seq<string>, sep: string): string {
    if |parts| == 0 then ""
    else if |parts| == 1 then parts[0]
    else parts[0] + sep + Join(parts[1..], sep)
  }

  /** Splitting and joining again on the same character gives back the string. */
  lemma {:induction false} JoinSplit(s: string, c: char)
    ensures Join(Split(s, c), [c]) == s
  {
    if s != [] {
      var parts, rest := Split(s, c), Split(s[1..], c);
      JoinSplit(s[1..], c);
      assert s == [s[0]] + s[1..];
      if s[0] == c {
        assert parts[0] == "" && parts[1..] == rest;
        assert Join(parts, [c]) == "" + [c] + Join(rest, [c]);
      } else if |rest| == 1 {
        assert parts == [[s[0]] + rest[0]];
      } else {
        assert parts[0] == [s[0]] + rest[0] && parts[1..] == rest[1..];
        assert Join(parts, [c]) == parts[0] + [c] + Join(rest[1..], [c]);
        assert Join(rest, [c]) == rest[0] + [c] + Join(rest[1..], [c]);
      }
    }
  }

  /** The first piece of `s.split(c)` is the longest prefix of `s` without `c`: it runs to the end or up to a `c`. */
  lemma {:induction false} SplitFirst(s: string, c: char)
    ensures StartsWith(s, Split(s, c)[0])
    ensures |Split(s, c)[0]| == |s| || s[|Split(s, c)[0]|] == c
  {
    if s != [] && s[0] != c {
      SplitFirst(s[1..], c);
      var first := Split(s[1..], c)[0];
      assert Split(s, c)[0] == [s[0]] + first;
      assert s == [s[0]] + s[1..];
    }
  }

  /** Joining the first `k` parts gives a prefix of joining all of them. */
  lemma {:induction false} JoinTakePrefix(parts: seq<string>, sep: string, k: nat)
    requires k <= |parts|
    ensures StartsWith(Join(parts, sep), Join(parts[..k], sep))
  {
    if k == 0 {
    } else if k == 1 {
      assert parts[..1] == [parts[0]];
    } else {
      JoinTakePrefix(parts[1..], sep, k - 1);
      assert parts[..k][1..] == parts[1..][..k - 1];
      var whole := Join(parts[1..], sep);
      var part := Join(parts[1..][..k - 1], sep);
      assert Join(parts, sep) == parts[0] + sep + whole;
      assert Join(parts[..k], sep) == parts[0] + sep + part;
      assert whole[..|part|] == part;
      assert (parts[0] + sep + whole)[..|parts[0] + sep + part|] == parts[0] + sep + part;
    }
  }

  /** Joins of all elements keep every non-separator character. */
  lemma {:induction false} JoinEmpty(parts: seq<string>, sep: string)
    requires |sep| > 0
    ensures Join(parts, sep) == "" <==> |parts| == 0 || (|parts| == 1 && parts[0] == "")
  {
    if |parts| >= 2 {
      assert |Join(parts, sep)| >= |sep|;
    }
  }

  // ---------------------------------------------------------------------
  // Whitespace trimming (`s.trim()`, ASCII whitespace)
  // ---------------------------------------------------------------------

  predicate IsSpace(c: char) {
    c == ' ' || c == '\t' || c == '\n' || c == '\r' || c == '\U{000B}' || c == '\U{000C}'
  }

  function TrimStart(s: string): (r: string)
    ensures |r| <= |s| && s[|s| - |r|..] == r
    ensures r == [] || !IsSpace(r[0])
  {
    if s != [] && IsSpace(s[0]) then TrimStart(s[1..]) else s
  }

  function TrimEnd(s: string): (r: string)
    ensures |r| <= |s| && s[..|r|] == r
    ensures r == [] || !IsSpace(r[|r| - 1])
  {
    if s != [] && IsSpace(s[|s| - 1]) then TrimEnd(s[..|s| - 1]) else s
  }

  function Trim(s: string): (r: string)
    ensures r == [] || (!IsSpace(r[0]) && !IsSpace(r[|r| - 1]))
  {
    TrimEnd(TrimStart(s))
  }

  // ---------------------------------------------------------------------
  // Decimal rendering (`String(n)` / template `${n}` of an integer)
  // ---------------------------------------------------------------------

  predicate IsDigit(c: char) {
    '0' <= c <= '9'
  }

  function DigitChar(d: nat): (c: char)
    requires d < 10
    ensures IsDigit(c)
  {
    ('0' as int + d) as char
  }

  function NatToString(n: nat): (r: string)
    ensures |r| >= 1
    ensures forall i :: 0 <= i < |r| ==> IsDigit(r[i])
    decreases n
  {
    if n < 10 then [DigitChar(n)] else NatToString(n / 10) + [DigitChar(n % 10)]
  }

  function IntToString(n: int): (r: string)
    ensures |r| >= 1
  {
    if n < 0 then "-" + NatToString(-n) else NatToString(n)
  }

  /** The value a string of decimal digits denotes. */
  function DigitsValue(s: string): nat
    requires forall i :: 0 <= i < |s| ==> IsDigit(s[i])
  {
    if s == [] then 0
    else
      assert IsDigit(s[|s| - 1]);
      DigitsValue(s[..|s| - 1]) * 10 + (s[|s| - 1] as int - '0' as int)
  }

  /** Reading the decimal rendering back gives the number. */
  lemma {:induction false} NatToStringValue(n: nat)
    ensures DigitsValue(NatToString(n)) == n
  {
    if n >= 10 {
      var r := NatToString(n);
      NatToStringValue(n / 10);
      assert r[..|r| - 1] == NatToString(n / 10);
    }
  }

  /** The printed form starts with a minus sign exactly for negative numbers. */
  lemma IntToStringSign(n: int)
    ensures IntToString(n)[0] == '-' <==> n < 0
  {
    if n >= 0 {
      assert IsDigit(NatToString(n)[0]);
    }
  }

  /** No two integers print the same. */
  lemma IntToStringInjective(a: int, b: int)
    requires IntToString(a) == IntToString(b)
    ensures a == b
  {
    IntToStringSign(a);
    IntToStringSign(b);
    if a >= 0 && b >= 0 {
      NatToStringValue(a);
      NatToStringValue(b);
    } else if a < 0 && b < 0 {
      assert NatToString(-a) == IntToString(a)[1..] == IntToString(b)[1..] == NatToString(-b);
      NatToStringValue(-a);
      NatToStringValue(-b);
    }
  }

  // ---------------------------------------------------------------------
  // Lower-case hexadecimal bytes
  // ---------------------------------------------------------------------

  newtype byte = x: int | 0 <= x < 256

  /** A lower-case hexadecimal digit, `0-9a-f`. */
  predicate IsHexChar(c: char) {
    '0' <= c <= '9' || 'a' <= c <= 'f'
  }

  /** The lower-case digit for a nibble; it reads back as that nibble. */
  function HexDigit(d: nat): (c: char)
    requires d < 16
    ensures IsHexChar(c)
    ensures HexValue(c) == Some(d)
  {
    if d < 10 then ('0' as int + d) as char else ('a' as int + d - 10) as char
  }

  /** `n.toString(16)`: the shortest lower-case hexadecimal rendering of `n`. */
  function ToHex(n: nat): (r: string)
    ensures |r| >= 1
    decreases n
  {
    if n < 16 then [HexDigit(n)] else ToHex(n / 16) + [HexDigit(n % 16)]
  }

  /** `s.padStart(width, fill)` */
  function PadStart(s: string, width: nat, fill: char): (r: string)
    ensures |r| == if |s| < width then width else |s|
    ensures EndsWith(r, s)
  {
    if |s| < width then seq(width - |s|, _ => fill) + s else s
  }

  /** The two lower-case hex digits of a byte, high nibble first. */
  function ByteHex(b: byte): (r: string)
    ensures |r| == 2
  {
    [HexDigit(b as nat / 16), HexDigit(b as nat % 16)]
  }

  /** `ByteHex` is what `b.toString(16).padStart(2, '0')` gives. */
  lemma ByteHexIsPaddedToHex(b: byte)
    ensures ByteHex(b) == PadStart(ToHex(b as nat), 2, '0')
  {
    var n := b as nat;
    if n >= 16 {
      assert ToHex(n) == ToHex(n / 16) + [HexDigit(n % 16)];
      assert ToHex(n / 16) == [HexDigit(n / 16)];
    } else {
      assert ToHex(n) == [HexDigit(n)];
      assert n / 16 == 0 && n % 16 == n;
    }
  }

  /** The concatenation of `ByteHex` over the bytes (`Array.from(bytes).map(...).join('')`). */
  function HexEncode(bytes: seq<byte>): (r: string)
    ensures |r| == 2 * |bytes|
  {
    if bytes == [] then "" else ByteHex(bytes[0]) + HexEncode(bytes[1..])
  }

  /** Characters `2i` and `2i+1` of the encoding are the two characters of `ByteHex(bytes[i])`. */
  lemma {:induction false} HexEncodeChars(bytes: seq<byte>, i: nat)
    requires i < |bytes|
    ensures HexEncode(bytes)[2 * i] == ByteHex(bytes[i])[0]
    ensures HexEncode(bytes)[2 * i + 1] == ByteHex(bytes[i])[1]
  {
    var head := ByteHex(bytes[0]);
    var tail := HexEncode(bytes[1..]);
    assert HexEncode(bytes) == head + tail;
    assert |head| == 2;
    if i > 0 {
      HexEncodeChars(bytes[1..], i - 1);
      assert bytes[1..][i - 1] == bytes[i];
      var j := 2 * (i - 1);
      assert j + 2 == 2 * i;
      assert (head + tail)[j + 2] == tail[j];
      assert (head + tail)[j + 3] == tail[j + 1];
    } else {
      assert (head + tail)[0] == head[0];
      assert (head + tail)[1] == head[1];
    }
  }

  /** Characters `2i` and `2i+1` are the high and low nibble of byte `i`. */
  lemma HexEncodeAt(bytes: seq<byte>, i: nat)
    requires i < |bytes|
    ensures HexEncode(bytes)[2 * i] == HexDigit(bytes[i] as nat / 16)
    ensures HexEncode(bytes)[2 * i + 1] == HexDigit(bytes[i] as nat % 16)
  {
    HexEncodeChars(bytes, i);
  }

  /** Every character of an encoding is one of `0-9a-f`. */
  lemma HexEncodeAlphabet(bytes: seq<byte>)
    ensures forall k :: 0 <= k < |HexEncode(bytes)| ==> IsHexChar(HexEncode(bytes)[k])
  {
    forall k | 0 <= k < |HexEncode(bytes)|
      ensures IsHexChar(HexEncode(bytes)[k])
    {
      HexEncodeAt(bytes, k / 2);
      assert k == 2 * (k / 2) || k == 2 * (k / 2) + 1;
    }
  }

  /** The nibble a lower-case hex digit stands for; nothing for any other character. */
  function HexValue(c: char): (v: Option<nat>)
    ensures v.Some? <==> IsHexChar(c)
    ensures v.Some? ==> v.value < 16
  {
    if '0' <= c <= '9' then Some(c as int - '0' as int)
    else if 'a' <= c <= 'f' then Some(c as int - 'a' as int + 10)
    else None
  }

  /** The inverse of `HexEncode`: pairs of lower-case hex digits back to bytes. */
  function HexDecode(s: string): Option<seq<byte>>
    decreases |s|
  {
    if s == [] then Some([])
    else if |s| == 1 then None
    else
      var hi, lo, rest := HexValue(s[0]), HexValue(s[1]), HexDecode(s[2..]);
      if hi.Some? && lo.Some? && rest.Some? then Some([(hi.value * 16 + lo.value) as byte] + rest.value) else None
  }

  /** Decoding a byte's two digits in front of `s` puts the byte in front of what `s` decodes to. */
  lemma HexDecodeCons(b: byte, s: string)
    ensures HexDecode(ByteHex(b) + s) == if HexDecode(s).Some? then Some([b] + HexDecode(s).value) else None
  {
    HexDecodePair(HexDigit(b as nat / 16), HexDigit(b as nat % 16), s);
    NibblesMakeByte(b);
  }

  /** Decoding two hex digits in front of `s`. */
  lemma HexDecodePair(c0: char, c1: char, s: string)
    requires IsHexChar(c0) && IsHexChar(c1)
    ensures HexDecode([c0, c1] + s)
            == if HexDecode(s).Some? then Some([(HexValue(c0).value * 16 + HexValue(c1).value) as byte] + HexDecode(s).value) else None
  {
    assert ([c0, c1] + s)[2..] == s;
  }

  lemma NibblesMakeByte(b: byte)
    ensures (b as nat / 16 * 16 + b as nat % 16) as byte == b
  {
  }

  /** Decoding an encoding returns the bytes. */
  lemma {:induction false} HexRoundTrip(bytes: seq<byte>)
    ensures HexDecode(HexEncode(bytes)) == Some(bytes)
  {
    if bytes != [] {
      HexRoundTrip(bytes[1..]);
      HexDecodeCons(bytes[0], HexEncode(bytes[1..]));
      assert [bytes[0]] + bytes[1..] == bytes;
    }
  }

  // ---------------------------------------------------------------------
  // Array.filter and order-preserving sub-sequences
  // ---------------------------------------------------------------------

  /** `xs.filter(p)` */
  function Filter<T>(xs: seq<T>, p: T -> bool): (r: seq<T>)
    ensures |r| <= |xs|
    ensures forall i :: 0 <= i < |r| ==> r[i] in xs && p(r[i])
    ensures forall i :: 0 <= i < |xs| && p(xs[i]) ==> xs[i] in r
  {
    if xs == [] then []
    else (if p(xs[0]) then [xs[0]] else []) + Filter(xs[1..], p)
  }

  /** `a` is obtained from `b` by deleting elements, keeping the order of the rest. */
  ghost predicate IsSubsequence<T>(a: seq<T>, b: seq<T>)
    decreases |b|
  {
    if a == [] then true
    else if b == [] then false
    else if a[0] == b[0] then IsSubsequence(a[1..], b[1..])
    else IsSubsequence(a, b[1..])
  }

  lemma {:induction false} FilterIsSubsequence<T>(xs: seq<T>, p: T -> bool)
    ensures IsSubsequence(Filter(xs, p), xs)
  {
    if xs != [] {
      FilterIsSubsequence(xs[1..], p);
      if p(xs[0]) {
        assert Filter(xs, p)[1..] == Filter(xs[1..], p);
      } else {
        assert Filter(xs, p) == Filter(xs[1..], p);
        SubsequenceSkip(Filter(xs[1..], p), xs);
      }
    }
  }

  /** Every sequence is a sub-sequence of itself. */
  lemma {:induction false} SubsequenceRefl<T>(a: seq<T>)
    ensures IsSubsequence(a, a)
  {
    if a != [] {
      SubsequenceRefl(a[1..]);
    }
  }

  /** A sub-sequence of a sub-sequence is a sub-sequence. */
  lemma {:induction false} SubsequenceTrans<T>(a: seq<T>, b: seq<T>, c: seq<T>)
    requires IsSubsequence(a, b) && IsSubsequence(b, c)
    ensures IsSubsequence(a, c)
    decreases |c|
  {
    if a != [] {
      if b[0] == c[0] {
        if a[0] == b[0] {
          SubsequenceTrans(a[1..], b[1..], c[1..]);
        } else {
          SubsequenceTrans(a, b[1..], c[1..]);
          SubsequenceSkip(a, c);
        }
      } else {
        SubsequenceTrans(a, b, c[1..]);
        SubsequenceSkip(a, c);
      }
    }
  }

  /** Dropping the head of the longer sequence keeps a sub-sequence of its tail one of the whole. */
  lemma {:induction false} SubsequenceSkip<T>(a: seq<T>, b: seq<T>)
    requires b != [] && IsSubsequence(a, b[1..])
    ensures IsSubsequence(a, b)
    decreases |b|, |a|
  {
    if a != [] && a[0] == b[0] {
      SubsequenceTail(a, b[1..]);
    }
  }

  /** A sub-sequence's tail is still a sub-sequence. */
  lemma {:induction false} SubsequenceTail<T>(a: seq<T>, b: seq<T>)
    requires a != [] && IsSubsequence(a, b)
    ensures IsSubsequence(a[1..], b)
    decreases |b|, |a|
  {
    if a[0] == b[0] {
      if a[1..] != [] {
        SubsequenceSkip(a[1..], b);
      }
    } else {
      SubsequenceTail(a, b[1..]);
      if a[1..] != [] {
        SubsequenceSkip(a[1..], b);
      }
    }
  }

  /** Filtering twice is filtering once by the conjunction. */
  lemma {:induction false} FilterFilter<T>(xs: seq<T>, p: T -> bool, q: T -> bool, pq: T -> bool)
    requires forall x :: pq(x) == (p(x) && q(x))
    ensures Filter(Filter(xs, p), q) == Filter(xs, pq)
  {
    if xs != [] {
      FilterFilter(xs[1..], p, q, pq);
      FilterAppend((if p(xs[0]) then [xs[0]] else []), Filter(xs[1..], p), q);
    }
  }

  lemma {:induction false} FilterAppend<T>(a: seq<T>, b: seq<T>, p: T -> bool)
    ensures Filter(a + b, p) == Filter(a, p) + Filter(b, p)
  {
    if a != [] {
      var ab := a + b;
      FilterAppend(a[1..], b, p);
      assert ab[0] == a[0] && ab[1..] == a[1..] + b;
      var h := if p(a[0]) then [a[0]] else [];
      calc {
        Filter(ab, p);
        h + Filter(a[1..] + b, p);
        h + (Filter(a[1..], p) + Filter(b, p));
        (h + Filter(a[1..], p)) + Filter(b, p);
      }
    } else {
      assert a + b == b;
    }
  }

  /** Filtering by a predicate every element meets changes nothing. */
  lemma {:induction false} FilterAll<T>(xs: seq<T>, p: T -> bool)
    requires forall i :: 0 <= i < |xs| ==> p(xs[i])
    ensures Filter(xs, p) == xs
  {
    if xs != [] {
      FilterAll(xs[1..], p);
    }
  }

  /** A predicate and its complement split a sequence: every element goes to exactly one side. */
  lemma {:induction false} FilterPartition<T>(xs: seq<T>, p: T -> bool, notP: T -> bool)
    requires forall x :: notP(x) == !p(x)
    ensures multiset(Filter(xs, p)) + multiset(Filter(xs, notP)) == multiset(xs)
    ensures |Filter(xs, p)| + |Filter(xs, notP)| == |xs|
  {
    if xs != [] {
      FilterPartition(xs[1..], p, notP);
      assert xs == [xs[0]] + xs[1..];
    }
  }

  /** The test "is not `c`". */
  function NotChar(c: char): char -> bool {
    (d: char) => d != c
  }

  /** `s.replace(/c/g, '')` deletes every `c` and keeps the other characters in order. */
  lemma {:induction false} ReplaceByNothing(s: string, c: char)
    ensures ReplaceAll(s, c, "") == Filter(s, NotChar(c))
  {
    if s != [] {
      ReplaceByNothing(s[1..], c);
    }
  }

  /** What the filter keeps is exactly the elements that pass. */
  lemma FilterMembers<T>(xs: seq<T>, p: T -> bool)
    ensures forall x :: x in Filter(xs, p) <==> x in xs && p(x)
  {
    forall x | x in Filter(xs, p)
      ensures x in xs && p(x)
    {
      var i :| 0 <= i < |Filter(xs, p)| && Filter(xs, p)[i] == x;
    }
    forall x | x in xs && p(x)
      ensures x in Filter(xs, p)
    {
      var i :| 0 <= i < |xs| && xs[i] == x;
    }
  }
}

=== FILE: workspace_selector.dfy ===
/**
 * The workspace picker: a case-insensitive search on workspace names, and
 * the selection handler that maps the picker's value (a workspace id
 * written as decimal text) back to a workspace.
 */
module WorkspaceSelector {
  import opened Text

  /** A saved workspace; `id` is absent for a record that was never stored. */
  datatype Workspace = Workspace(id: Option<int>, name: string, path: string)

  /** The search test: the lower-cased name contains the lower-cased query. */
  function NameMatches(query: string): Workspace -> bool {
    (w: Workspace) => Contains(Lower(w.name), Lower(query))
  }

  /** `filteredWorkspaces`: exactly the workspaces whose name matches, in their original order. */
  function FilteredWorkspaces(workspaces: seq<Workspace>, query: string): (r: seq<Workspace>)
    ensures forall w :: w in r <==> w in workspaces && Contains(Lower(w.name), Lower(query))
  {
    FilterMembers(workspaces, NameMatches(query));
    Filter(workspaces, NameMatches(query))
  }

  lemma FilteredKeepsOrder(workspaces: seq<Workspace>, query: string)
    ensures IsSubsequence(FilteredWorkspaces(workspaces, query), workspaces)
  {
    FilterIsSubsequence(workspaces, NameMatches(query));
  }

  /** An empty search lists every workspace, unchanged. */
  lemma {:induction false} EmptyQueryKeepsAll(workspaces: seq<Workspace>)
    ensures FilteredWorkspaces(workspaces, "") == workspaces
  {
    forall i | 0 <= i < |workspaces|
      ensures NameMatches("")(workspaces[i])
    {
      ContainsEmpty(Lower(workspaces[i].name));
    }
    FilterAll(workspaces, NameMatches(""));
  }

  /** `w.id?.toString() === value`: a workspace without an id matches no value. */
  predicate IdIs(w: Workspace, value: string) {
    w.id.Some? && IntToString(w.id.value) == value
  }

  /** `workspaces.find(...)` on the id text: the first workspace whose id reads as `value`. */
  function FindById(workspaces: seq<Workspace>, value: string): (r: Option<Workspace>)
    ensures r.None? <==> forall i :: 0 <= i < |workspaces| ==> !IdIs(workspaces[i], value)
    ensures r.Some? ==> exists i :: 0 <= i < |workspaces| && workspaces[i] == r.value && IdIs(workspaces[i], value)
                                    && forall j :: 0 <= j < i ==> !IdIs(workspaces[j], value)
  {
    if workspaces == [] then None
    else if IdIs(workspaces[0], value) then Some(workspaces[0])
    else
      var rest := FindById(workspaces[1..], value);
      assert forall i :: 1 <= i < |workspaces| ==> workspaces[i] == workspaces[1..][i - 1];
      rest
  }

  /**
   * `handleValueChange`: the workspace handed to `onSelect`, if any. A
   * missing or empty value selects nothing, and so does a value no id reads as.
   */
  function HandleValueChange(workspaces: seq<Workspace>, value: Option<string>): (selected: Option<Workspace>)
    ensures value.None? || value.value == "" ==> selected.None?
    ensures value.Some? && value.value != "" ==> selected == FindById(workspaces, value.value)
  {
    match value
    case None => None
    case Some(v) => if v == "" then None else FindById(workspaces, v)
  }

  /**
   * Picking a listed workspace by its id selects a workspace with that same
   * id (the first one listed with it); when ids are unique it is that workspace.
   */
  lemma SelectByOwnId(workspaces: seq<Workspace>, k: nat)
    requires k < |workspaces| && workspaces[k].id.Some?
    ensures var selected := HandleValueChange(workspaces, Some(IntToString(workspaces[k].id.value)));
      selected.Some? && selected.value.id == workspaces[k].id
      && ((forall i, j :: 0 <= i < j < |workspaces| && workspaces[i].id.Some? ==> workspaces[i].id != workspaces[j].id)
          ==> selected.value == workspaces[k])
  {
    var value := IntToString(workspaces[k].id.value);
    assert IdIs(workspaces[k], value);
    var selected := HandleValueChange(workspaces, Some(value));
    var i :| 0 <= i < |workspaces| && workspaces[i] == selected.value && IdIs(workspaces[i], value)
             && forall j :: 0 <= j < i ==> !IdIs(workspaces[j], value);
    IntToStringInjective(workspaces[i].id.value, workspaces[k].id.value);
  }
}

=== FILE: worktree_activity.dfy ===
/**
 * The renderer's per-worktree activity store: agent and terminal session
 * counters and diff statistics keyed by worktree path, and the registries
 * of close handlers that panels subscribe to.
 *
 * The counter and diff-stat updates build a new state from the old one, so
 * they are functions from state to state; `FetchDiffStats` writes into a
 * copy in a loop; the handler registries are updated in place.
 */
module WorktreeActivity {
  import opened Text

  datatype Activity = Activity(agentCount: int, terminalCount: int)

  datatype DiffStats = DiffStats(insertions: int, deletions: int)

  datatype ActivityState = ActivityState(activities: map<string, Activity>, diffStats: map<string, DiffStats>)

  const DefaultActivity: Activity := Activity(0, 0)

  const DefaultDiffStats: DiffStats := DiffStats(0, 0)

  const Empty: ActivityState := ActivityState(map[], map[])

  /** `m` and `m2` agree on every key except possibly `p`. */
  ghost predicate OthersUnchanged<V>(m: map<string, V>, m2: map<string, V>, p: string) {
    forall q :: q != p ==> (q in m <==> q in m2) && (q in m ==> m[q] == m2[q])
  }

  // -----------------------------------------------------------------------
  // Queries
  // -----------------------------------------------------------------------

  /** `getActivity`: the stored record, or all zeros for a path never seen. */
  function GetActivity(s: ActivityState, p: string): (a: Activity)
    ensures p in s.activities ==> a == s.activities[p]
    ensures p !in s.activities ==> a == DefaultActivity
  {
    if p in s.activities then s.activities[p] else DefaultActivity
  }

  /** `getDiffStats`: the stored stats, or all zeros. */
  function GetDiffStats(s: ActivityState, p: string): (d: DiffStats)
    ensures p in s.diffStats ==> d == s.diffStats[p]
    ensures p !in s.diffStats ==> d == DefaultDiffStats
  {
    if p in s.diffStats then s.diffStats[p] else DefaultDiffStats
  }

  /** `hasActivity`: an entry exists and one of its counters is positive. */
  function HasActivity(s: ActivityState, p: string): (b: bool)
    ensures b <==> p in s.activities && (s.activities[p].agentCount > 0 || s.activities[p].terminalCount > 0)
  {
    var a := if p in s.activities then Some(s.activities[p]) else None;
    if a.Some? then a.value.agentCount > 0 || a.value.terminalCount > 0 else false
  }

  // -----------------------------------------------------------------------
  // Counter updates
  // -----------------------------------------------------------------------

  /** Store `a` under `p`; the diff stats and every other path stay as they were. */
  function WithActivity(s: ActivityState, p: string, a: Activity): (r: ActivityState)
    ensures p in r.activities && r.activities[p] == a
    ensures OthersUnchanged(s.activities, r.activities, p)
    ensures r.diffStats == s.diffStats
  {
    s.(activities := s.activities[p := a])
  }

  function IncrementAgent(s: ActivityState, p: string): (r: ActivityState)
    ensures GetActivity(r, p).agentCount == GetActivity(s, p).agentCount + 1
    ensures GetActivity(r, p).terminalCount == GetActivity(s, p).terminalCount
    ensures p in r.activities && OthersUnchanged(s.activities, r.activities, p) && r.diffStats == s.diffStats
  {
    var current := GetActivity(s, p);
    WithActivity(s, p, current.(agentCount := current.agentCount + 1))
  }

  /** `Math.max(0, count - 1)`: a count that was zero or negative ends at zero. */
  function DecrementAgent(s: ActivityState, p: string): (r: ActivityState)
    ensures GetActivity(r, p).agentCount >= 0
    ensures GetActivity(s, p).agentCount >= 1 ==> GetActivity(r, p).agentCount == GetActivity(s, p).agentCount - 1
    ensures GetActivity(s, p).agentCount < 1 ==> GetActivity(r, p).agentCount == 0
    ensures GetActivity(r, p).terminalCount == GetActivity(s, p).terminalCount
    ensures p in r.activities && OthersUnchanged(s.activities, r.activities, p) && r.diffStats == s.diffStats
  {
    var current := GetActivity(s, p);
    WithActivity(s, p, current.(agentCount := if current.agentCount - 1 < 0 then 0 else current.agentCount - 1))
  }

  function SetAgentCount(s: ActivityState, p: string, count: int): (r: ActivityState)
    ensures GetActivity(r, p).agentCount == count
    ensures GetActivity(r, p).terminalCount == GetActivity(s, p).terminalCount
    ensures p in r.activities && OthersUnchanged(s.activities, r.activities, p) && r.diffStats == s.diffStats
  {
    var current := GetActivity(s, p);
    WithActivity(s, p, current.(agentCount := count))
  }

  function IncrementTerminal(s: ActivityState, p: string): (r: ActivityState)
    ensures GetActivity(r, p).terminalCount == GetActivity(s, p).terminalCount + 1
    ensures GetActivity(r, p).agentCount == GetActivity(s, p).agentCount
    ensures p in r.activities && OthersUnchanged(s.activities, r.activities, p) && r.diffStats == s.diffStats
  {
    var current := GetActivity(s, p);
    WithActivity(s, p, current.(terminalCount := current.terminalCount + 1))
  }

  function DecrementTerminal(s: ActivityState, p: string): (r: ActivityState)
    ensures GetActivity(r, p).terminalCount >= 0
    ensures GetActivity(s, p).terminalCount >= 1 ==> GetActivity(r, p).terminalCount == GetActivity(s, p).terminalCount - 1
    ensures GetActivity(s, p).terminalCount < 1 ==> GetActivity(r, p).terminalCount == 0
    ensures GetActivity(r, p).agentCount == GetActivity(s, p).agentCount
    ensures p in r.activities && OthersUnchanged(s.activities, r.activities, p) && r.diffStats == s.diffStats
  {
    var current := GetActivity(s, p);
    WithActivity(s, p, current.(terminalCount := if current.terminalCount - 1 < 0 then 0 else current.terminalCount - 1))
  }

  function SetTerminalCount(s: ActivityState, p: string, count: int): (r: ActivityState)
    ensures GetActivity(r, p).terminalCount == count
    ensures GetActivity(r, p).agentCount == GetActivity(s, p).agentCount
    ensures p in r.activities && OthersUnchanged(s.activities, r.activities, p) && r.diffStats == s.diffStats
  {
    var current := GetActivity(s, p);
    WithActivity(s, p, current.(terminalCount := count))
  }

  /** `clearWorktree`: only the activity entry of `p` goes; its diff stats stay. */
  function ClearWorktree(s: ActivityState, p: string): (r: ActivityState)
    ensures p !in r.activities && GetActivity(r, p) == DefaultActivity
    ensures OthersUnchanged(s.activities, r.activities, p)
    ensures r.diffStats == s.diffStats
  {
    s.(activities := s.activities - {p})
  }

  /** `setDiffStats`: replaces exactly one key of the diff stats. */
  function SetDiffStats(s: ActivityState, p: string, stats: DiffStats): (r: ActivityState)
    ensures GetDiffStats(r, p) == stats && p in r.diffStats
    ensures OthersUnchanged(s.diffStats, r.diffStats, p)
    ensures r.activities == s.activities
  {
    s.(diffStats := s.diffStats[p := stats])
  }

  /** Opening a session and closing it again restores a non-negative counter. */
  lemma IncrementDecrementAgent(s: ActivityState, p: string)
    requires GetActivity(s, p).agentCount >= 0
    ensures GetActivity(DecrementAgent(IncrementAgent(s, p), p), p) == GetActivity(s, p)
  {
  }

  lemma IncrementDecrementTerminal(s: ActivityState, p: string)
    requires GetActivity(s, p).terminalCount >= 0
    ensures GetActivity(DecrementTerminal(IncrementTerminal(s, p), p), p) == GetActivity(s, p)
  {
  }

  /** After an increment the worktree shows activity, whatever it had before (counts start non-negative). */
  lemma IncrementShowsActivity(s: ActivityState, p: string)
    requires GetActivity(s, p).terminalCount >= 0 && GetActivity(s, p).agentCount >= 0
    ensures HasActivity(IncrementAgent(s, p), p) && HasActivity(IncrementTerminal(s, p), p)
  {
  }

  // -----------------------------------------------------------------------
  // fetchDiffStats
  // -----------------------------------------------------------------------

  /** The stats for one fetch: what came back, or the default when the request threw. */
  function StatsOrDefault(fetched: Option<DiffStats>): DiffStats {
    if fetched.Some? then fetched.value else DefaultDiffStats
  }

  /** Index `i` is the last occurrence of its path in `paths`. */
  ghost predicate LastOccurrence(paths: seq<string>, i: int)
    requires 0 <= i < |paths|
  {
    forall j :: i < j < |paths| ==> paths[j] != paths[i]
  }

  /** `m` after `results[i]` has been written under `paths[i]` for each `i` in turn. */
  function WriteAll(m: map<string, DiffStats>, paths: seq<string>, results: seq<DiffStats>): map<string, DiffStats>
    requires |results| == |paths|
    decreases |paths|
  {
    if paths == [] then m
    else
      var n := |paths| - 1;
      WriteAll(m, paths[..n], results[..n])[paths[n] := results[n]]
  }

  /** The written map holds the old keys and every written path, and nothing else. */
  lemma {:induction false} WriteAllKeys(m: map<string, DiffStats>, paths: seq<string>, results: seq<DiffStats>)
    requires |results| == |paths|
    ensures forall q :: q in WriteAll(m, paths, results) <==> q in m || q in paths
    decreases |paths|
  {
    if paths != [] {
      var n := |paths| - 1;
      WriteAllKeys(m, paths[..n], results[..n]);
      assert paths == paths[..n] + [paths[n]];
    }
  }

  /** A path that was not fetched keeps its old stats, or stays absent. */
  lemma {:induction false} WriteAllOthers(m: map<string, DiffStats>, paths: seq<string>, results: seq<DiffStats>, q: string)
    requires |results| == |paths| && q !in paths
    ensures q in WriteAll(m, paths, results) <==> q in m
    ensures q in m ==> WriteAll(m, paths, results)[q] == m[q]
    decreases |paths|
  {
    if paths != [] {
      var n := |paths| - 1;
      assert q !in paths[..n] by {
        assert forall x :: x in paths[..n] ==> x in paths;
      }
      WriteAllOthers(m, paths[..n], results[..n], q);
    }
  }

  /** A path fetched more than once keeps the result of its last occurrence. */
  lemma {:induction false} WriteAllLast(m: map<string, DiffStats>, paths: seq<string>, results: seq<DiffStats>, i: int)
    requires |results| == |paths| && 0 <= i < |paths| && LastOccurrence(paths, i)
    ensures paths[i] in WriteAll(m, paths, results)
    ensures WriteAll(m, paths, results)[paths[i]] == results[i]
    decreases |paths|
  {
    var n := |paths| - 1;
    if i < n {
      assert paths[n] != paths[i];
      assert LastOccurrence(paths[..n], i);
      WriteAllLast(m, paths[..n], results[..n], i);
    }
  }

  /**
   * `fetchDiffStats` once every request has settled: `fetched[i]` is the
   * answer for `paths[i]` (`None` when it threw). The results are written,
   * in order, into a copy of the diff stats, so a repeated path keeps its
   * last result; other paths and the activities are untouched.
   */
  method FetchDiffStats(s: ActivityState, paths: seq<string>, fetched: seq<Option<DiffStats>>)
    returns (r: ActivityState)
    requires |fetched| == |paths|
    ensures r.activities == s.activities
    ensures r.diffStats == WriteAll(s.diffStats, paths, seq(|paths|, i requires 0 <= i < |paths| => StatsOrDefault(fetched[i])))
    ensures forall q :: q in r.diffStats <==> q in s.diffStats || q in paths
    ensures forall i :: 0 <= i < |paths| && LastOccurrence(paths, i) ==>
              (paths[i] in r.diffStats && r.diffStats[paths[i]] == StatsOrDefault(fetched[i]))
    ensures forall q :: q !in paths && q in s.diffStats ==> q in r.diffStats && r.diffStats[q] == s.diffStats[q]
  {
    var results := seq(|paths|, i requires 0 <= i < |paths| => StatsOrDefault(fetched[i]));
    var newDiffStats := s.diffStats;
    var k := 0;
    while k < |paths|
      invariant 0 <= k <= |paths|
      invariant newDiffStats == WriteAll(s.diffStats, paths[..k], results[..k])
    {
      assert paths[..k + 1][..k] == paths[..k];
      assert results[..k + 1][..k] == results[..k];
      newDiffStats := newDiffStats[paths[k] := results[k]];
      k := k + 1;
    }
    assert paths[..k] == paths && results[..k] == results;
    r := s.(diffStats := newDiffStats);
    WriteAllKeys(s.diffStats, paths, results);
    forall i | 0 <= i < |paths| && LastOccurrence(paths, i)
      ensures paths[i] in r.diffStats && r.diffStats[paths[i]] == StatsOrDefault(fetched[i])
    {
      WriteAllLast(s.diffStats, paths, results, i);
    }
    forall q | q !in paths && q in s.diffStats
      ensures q in r.diffStats && r.diffStats[q] == s.diffStats[q]
    {
      WriteAllOthers(s.diffStats, paths, results, q);
    }
  }

  // -----------------------------------------------------------------------
  // Close-handler registries
  // -----------------------------------------------------------------------

  /** A registered handler's identity (JavaScript function identity). */
  type HandlerId = nat

  /** One call `handler(worktreePath)`. */
  datatype Call = Call(handler: HandlerId, worktreePath: string)

  ghost predicate NoDuplicates(hs: seq<HandlerId>) {
    forall i, j :: 0 <= i < j < |hs| ==> hs[i] != hs[j]
  }

  /** `set.add(h)` on an insertion-ordered set. */
  function Added(hs: seq<HandlerId>, h: HandlerId): (r: seq<HandlerId>)
    ensures NoDuplicates(hs) ==> NoDuplicates(r)
    ensures h in r && forall x :: x in hs ==> x in r
  {
    if h in hs then hs else hs + [h]
  }

  /** `set.delete(h)`, keeping the order of the others. */
  function Removed(hs: seq<HandlerId>, h: HandlerId): (r: seq<HandlerId>)
    ensures h !in r
    ensures forall x :: x in r <==> x in hs && x != h
  {
    if hs == [] then []
    else if hs[0] == h then Removed(hs[1..], h)
    else [hs[0]] + Removed(hs[1..], h)
  }

  /** Deleting from a set never creates a duplicate. */
  lemma {:induction false} RemovedNoDuplicates(hs: seq<HandlerId>, h: HandlerId)
    requires NoDuplicates(hs)
    ensures NoDuplicates(Removed(hs, h))
  {
    if hs != [] {
      var rest := Removed(hs[1..], h);
      RemovedNoDuplicates(hs[1..], h);
      if hs[0] != h {
        assert hs[0] !in hs[1..];
        ConsNoDuplicates(hs[0], rest);
      }
    }
  }

  lemma ConsNoDuplicates(x: HandlerId, hs: seq<HandlerId>)
    requires x !in hs && NoDuplicates(hs)
    ensures NoDuplicates([x] + hs)
  {
    var r := [x] + hs;
    forall i, j | 0 <= i < j < |r|
      ensures r[i] != r[j]
    {
      assert r[j] == hs[j - 1];
      if i > 0 {
        assert r[i] == hs[i - 1];
      }
    }
  }

  /** Disposing of a handler that was not registered before its registration restores the set. */
  lemma {:induction false} DisposeUndoesRegister(hs: seq<HandlerId>, h: HandlerId)
    requires h !in hs
    ensures Removed(Added(hs, h), h) == hs
  {
    RemovedAbsent(hs, h);
    RemovedAppend(hs, [h], h);
  }

  lemma {:induction false} RemovedAbsent(hs: seq<HandlerId>, h: HandlerId)
    requires h !in hs
    ensures Removed(hs, h) == hs
  {
    if hs != [] {
      RemovedAbsent(hs[1..], h);
    }
  }

  lemma {:induction false} RemovedAppend(a: seq<HandlerId>, b: seq<HandlerId>, h: HandlerId)
    ensures Removed(a + b, h) == Removed(a, h) + Removed(b, h)
  {
    if a == [] {
      assert a + b == b;
    } else {
      var ab := a + b;
      RemovedAppend(a[1..], b, h);
      assert ab[0] == a[0] && ab[1..] == a[1..] + b;
      if a[0] != h {
        calc {
          Removed(ab, h);
          [a[0]] + Removed(a[1..] + b, h);
          [a[0]] + (Removed(a[1..], h) + Removed(b, h));
          ([a[0]] + Removed(a[1..], h)) + Removed(b, h);
        }
      }
    }
  }

  /** The agent or the terminal close-handler set of the store. */
  class CloseHandlerRegistry {
    var handlers: seq<HandlerId>

    ghost predicate Valid()
      reads this
    {
      NoDuplicates(handlers)
    }

    constructor ()
      ensures Valid() && handlers == []
    {
      handlers := [];
    }

    /** `register*CloseHandler`: add `h`; the returned disposer is `Dispose(h)`. */
    method Register(h: HandlerId)
      requires Valid()
      modifies this
      ensures Valid()
      ensures handlers == Added(old(handlers), h)
    {
      handlers := Added(handlers, h);
    }

    /** The disposer returned by `Register`: delete `h`, whether or not it is still there. */
    method Dispose(h: HandlerId)
      requires Valid()
      modifies this
      ensures Valid()
      ensures handlers == Removed(old(handlers), h)
    {
      RemovedNoDuplicates(handlers, h);
      handlers := Removed(handlers, h);
    }

    /** `close*Sessions`: call every registered handler with the path, in registration order. */
    method CloseSessions(worktreePath: string) returns (calls: seq<Call>)
      ensures |calls| == |handlers|
      ensures forall i :: 0 <= i < |handlers| ==> calls[i] == Call(handlers[i], worktreePath)
    {
      calls := [];
      var i := 0;
      while i < |handlers|
        invariant 0 <= i <= |handlers|
        invariant |calls| == i
        invariant forall k :: 0 <= k < i ==> calls[k] == Call(handlers[k], worktreePath)
      {
        calls := calls + [Call(handlers[i], worktreePath)];
        i := i + 1;
      }
    }
  }
}

=== FILE: worktrees_view.dfy ===
/**
 * The worktree list's search box and its all / active / stale switch.
 *
 * The list shown is the repository's worktrees, first narrowed by the
 * search text (case-insensitively, on the branch name and the path), then
 * by whether git reports the worktree as prunable.
 */
module WorktreesView {
  import opened Text

  /** A worktree as listed by git: its path, its branch (none when detached) and whether it is prunable. */
  datatype Worktree = Worktree(path: string, branch: Option<string>, prunable: bool)

  datatype FilterType = All | Active | Stale

  /** The search test for a query already lower-cased: the branch or the path contains it. */
  function MatchesSearch(query: string): Worktree -> bool {
    (w: Worktree) => (w.branch.Some? && Contains(Lower(w.branch.value), query)) || Contains(Lower(w.path), query)
  }

  function IsActive(): Worktree -> bool {
    (w: Worktree) => !w.prunable
  }

  function IsStale(): Worktree -> bool {
    (w: Worktree) => w.prunable
  }

  /** The search result before the type switch: everything for an empty query. */
  function Searched(worktrees: seq<Worktree>, searchQuery: string): seq<Worktree> {
    if searchQuery != "" then Filter(worktrees, MatchesSearch(Lower(searchQuery))) else worktrees
  }

  /** Whether the type switch keeps `w`. */
  predicate TypeKeeps(filter: FilterType, w: Worktree) {
    match filter
    case All => true
    case Active => !w.prunable
    case Stale => w.prunable
  }

  /** `filteredWorktrees` */
  function FilteredWorktrees(worktrees: seq<Worktree>, searchQuery: string, filter: FilterType): (r: seq<Worktree>)
    ensures searchQuery == "" && filter == All ==> r == worktrees
    ensures forall w :: w in r <==>
              w in worktrees && (searchQuery == "" || MatchesSearch(Lower(searchQuery))(w)) && TypeKeeps(filter, w)
  {
    var result := Searched(worktrees, searchQuery);
    FilterMembers(worktrees, MatchesSearch(Lower(searchQuery)));
    FilterMembers(result, IsActive());
    FilterMembers(result, IsStale());
    match filter
    case All => result
    case Active => Filter(result, IsActive())
    case Stale => Filter(result, IsStale())
  }

  /** The list shown keeps the worktrees' order: it is a subsequence of them. */
  lemma FilteredIsSubsequence(worktrees: seq<Worktree>, searchQuery: string, filter: FilterType)
    ensures IsSubsequence(FilteredWorktrees(worktrees, searchQuery, filter), worktrees)
  {
    var result := Searched(worktrees, searchQuery);
    if searchQuery != "" {
      FilterIsSubsequence(worktrees, MatchesSearch(Lower(searchQuery)));
    } else {
      SubsequenceRefl(worktrees);
    }
    if filter == Active {
      FilterIsSubsequence(result, IsActive());
      SubsequenceTrans(Filter(result, IsActive()), result, worktrees);
    } else if filter == Stale {
      FilterIsSubsequence(result, IsStale());
      SubsequenceTrans(Filter(result, IsStale()), result, worktrees);
    }
  }

  /** 'active' and 'stale' split the search result between them: each worktree found lands in exactly one. */
  lemma ActiveStalePartition(worktrees: seq<Worktree>, searchQuery: string)
    ensures multiset(FilteredWorktrees(worktrees, searchQuery, Active)) + multiset(FilteredWorktrees(worktrees, searchQuery, Stale))
            == multiset(FilteredWorktrees(worktrees, searchQuery, All))
    ensures |FilteredWorktrees(worktrees, searchQuery, Active)| + |FilteredWorktrees(worktrees, searchQuery, Stale)|
            == |FilteredWorktrees(worktrees, searchQuery, All)|
  {
    FilterPartition(Searched(worktrees, searchQuery), IsActive(), IsStale());
  }
}
